=== FILE: README.md ===
# Ground station telemetry core, modelled in Dafny

This project models the core of a CanSat ground station written in Python
(`main.py`, one process serving a serial link and a web dashboard). It
covers the following parts:

- **Framing** (`framing.dfy`). The serial line reader splits incoming bytes
  at LF and drops trailing CRs. Any unterminated tail stays in the buffer
  for the next call.
- **Telemetry handling** (`pipeline.dfy`, `records.dfy`, `sequencing.dfy`,
  `logs.dfy`).
  - A line is split on commas and each field is stripped.
  - Lines with fewer than 22 fields are logged as bad lines.
  - An accepted line is first appended verbatim to the live CSV file, then
    counted: the receive count goes up by one, the packet number is read
    from field 2, and loss grows by the forward gap.
  - Then a record is built through the default-on-empty accessors. A field
    that does not parse aborts the handler after the CSV row and the
    counters are already updated.
  - The record goes into a log ring of 10 000 entries, and `/api/logs`
    reads the ring's tail, clamped to 1..5000 entries.
  - `/api/ingest` feeds a stripped browser line into the same handler.
- **Uplink** (`uplink.dfy`).
  - `/api/command` frames an operator command as `CMD,1043,<stripped body>`,
    records it as the last command and queues it.
  - The simulation sender queues `SIM,ENABLE` and `SIM,ACTIVATE`. Then,
    if the file exists, it queues one `SIMP` frame per line that is neither
    blank nor a `#` comment.
  - The writer task sends each queued frame followed by CR LF. When the
    write succeeds, it logs the frame to the same log ring.
- **CSV files** (`csvfiles.dfy`).
  - At start-up the live flight file is created with its header if it is
    missing.
  - `/api/csv/save-now` writes a snapshot of browser rows to
    `Flight_<team>.csv`, `Flight_<team>(1).csv`, and so on, taking the first
    free name. The team tag is taken from the first row whose first field is
    numeric.
- **Configuration and state** (`station.dfy`): the team number, the baud
  presets, the 23-column CSV header, the process state `GSState`, and the
  serial-configuration endpoint.

`text.dfy` holds the Python string built-ins the code relies on: `strip`,
`split`, `isdigit`, `zfill`, `int`, `str(n)` and `{n:04}`. `seqs.dfy` and
`wrappers.dfy` are generic helpers.

The model is functional. The process-wide state, the CSV file, the log ring
and the uplink queue are values passed in and returned. A file is
`Option<seq<string>>`: `None` while it does not exist, otherwise the pieces
of text written to it in order.

Some facts about `main.py` that shape the model:

- Loss is `pkt - last - 1` on unbounded integers. There is no
  packet-counter wrap-around.
- Telemetry is comma-separated text only. There is no JSON decoding of
  downlink frames.
- Command echoes are not correlated with the commands sent.
- Viewers get each broadcast directly, with no per-viewer buffers.
- The counters are never reset, not even when the serial port reopens.
- A line is accepted when it has at least 22 fields. Column index 22
  (heading) is read when present, and fields after it are ignored.
- An empty field takes its accessor's default: 0.0 for float columns,
  0 for integer columns, and the team number 1043 for column 0.
- A field that does not parse aborts the whole record, after the CSV row
  and the counters have already been updated.

## Model

| member | source | states |
|---|---|---|
| Framing.Partition | main.py:147-153 | A buffer is a sequence of LF-free chunks, each followed by one LF, then an LF-free tail; putting the LFs back rebuilds the buffer exactly |
| Framing.PartitionUnique | main.py:147-153 | That decomposition is the only one: any LF-free lines and LF-free tail that rebuild a buffer are the ones the reader finds |
| Framing.StripTrailingCR | main.py:152 | `rstrip("\r")` keeps a prefix of the line, removes only CR characters, and leaves no CR at the end |
| Framing.DataReceived | main.py:147-153 | The loop emits, in order, every LF-terminated chunk of buffer plus new data with its trailing CRs removed, and keeps exactly the unterminated tail as the new buffer |
| Framing.DataReceivedLines | main.py:149-152 | No emitted line contains an LF or ends in a CR |
| Framing.PartitionIncremental | main.py:147-153 | Data arriving in two pieces yields the same lines in the same order, and the same leftover buffer, as the same data arriving at once |
| Station.Initial | main.py:113-122 | The process state at start-up: the default port at 115200 baud, no packets received or lost, no previous packet, the CSV file not ready, and an em dash as the last command; pinned by its definition, with InitialBaudAllowed and ExampleRun about it |
| Station.SetSerialConfig | main.py:324-328 | A baud rate outside the nine presets is refused with 400 "baud not allowed"; otherwise only the serial configuration changes |
| Station.InitialBaudAllowed | main.py:31 | The start-up baud rate 115200 is one of the presets |
| Station.BaudStaysAllowed | main.py:324-328 | From a preset baud rate, after any series of configuration requests, refused or accepted, the baud rate is still a preset and only the serial configuration has changed |
| Station.TeamTagIsPadded | main.py:29 | The tag used in frames and file names is team number 1043 formatted with `{:04}` |
| Sequencing.CountPacket | main.py:223-231 | One accepted line: receive count plus one; `last_pkt` becomes the packet number; loss grows exactly when the number jumps forward past `last + 1`, by the gap; nothing else changes |
| Sequencing.TrackCounts | main.py:223-231 | Over any run of packets the receive count grows by the run's length, loss never decreases, and the last packet number is remembered |
| Sequencing.IncreasingLoss | main.py:229-230 | For strictly increasing packet numbers after a known previous one, the added loss is exactly the count of skipped numbers |
| Sequencing.FreshIncreasingLoss | main.py:228-231 | From no previous packet, a strictly increasing run loses exactly the numbers missing between its first and last packet |
| Sequencing.ExampleRun | main.py:223-231 | Packets 1,2,3,5,5,7 from the initial state give six receives and two losses; the repeated 5 adds none |
| Records.Fields | main.py:212 | Splitting and stripping gives one field per comma plus one; field k is the k-th comma-separated segment stripped, so every field is trimmed and comma-free |
| Records.Kind | main.py:239-262 | The accessor each keyword argument uses: column 0 an integer defaulting to 1043, columns 2 and 20 integers defaulting to 0, columns 1, 3, 4, 16 and 21 text, all others floats; pinned by its definition, which BuildRecordColumns and RecordRoundTrip rely on |
| Records.FieldText | main.py:236 | `s_s`: the field when present and non-empty, else the default |
| Records.FieldInt | main.py:235 | `s_i`: the default for a missing or empty field; otherwise success exactly when the field parses as an integer, failing with the column index |
| Records.FieldFloat | main.py:234 | `s_f`: "0.0" for a missing or empty field; otherwise success exactly when the field is a float literal, failing with the column index |
| Records.FirstBadColumn | main.py:238-262 | Finds the first column, in argument order, whose accessor raises; every earlier column is fine, and none is found only when all 23 are fine |
| Records.BuildRecord | main.py:238-268 | The record is built exactly when every column's accessor succeeds; a failure names the first column that raises; a record carries the given timestamp, counters and raw line |
| Records.BuildRecordColumns | main.py:238-262 | Every column of a built record is exactly what that column's accessor yields |
| Records.RecordRoundTrip | main.py:234-262 | Reading a built record back against its fields: text and float columns are the fields verbatim, integer columns parse back to the record's value, and empty or missing columns hold their defaults |
| Records.BuildRecordPacket | main.py:241 | The record's packet count equals the number the counters used: `int(parts[2])`, or 0 for an empty field |
| Logs.RingAppend | main.py:123 | Appending to the bounded deque keeps the newest entries up to 10 000, drops only the oldest, and puts the new entry last |
| Logs.ClampTail | main.py:307 | `max(1, min(n, 5000))` lies in 1..5000 and is `n` when `n` is already in range |
| Logs.LogTail | main.py:306-308 | The response is the newest `min(clamped n, ring size)` entries, oldest first |
| Logs.TailHoldsNewest | main.py:123 | After any append, a tail read is non-empty, at most 5000 long, and ends with the entry just appended |
| Logs.ApiLogs | main.py:305-308 | Without a count the endpoint returns the newest 500 entries, or the whole ring when it is smaller; with one it returns the clamped tail; either way the newest entries in ring order |
| Pipeline.HandleLine | main.py:211-271 | Short lines only add a bad-line entry to the ring; accepted lines append the raw line plus CR LF to a ready CSV file, then update the counters, and nothing else in the state changes; a raising column leaves the ring alone; a decoded record carries the updated counters, the tracked packet number, the raw line and the timestamp, and is appended to the ring |
| Pipeline.Admit | main.py:218-231 | Steps one and two of an accepted line: a ready file gains the raw line plus CR LF after its earlier text, and a file not ready is left alone; one more packet is received, the tracker remembers the packet number, and loss grows by the forward gap; nothing else in the state, and nothing in the ring, changes |
| Pipeline.PacketNumber | main.py:225-228 | The packet number is `int(parts[2])` when that parses, and 0 where `int()` raises |
| Pipeline.PacketNumberRoundTrip | main.py:225-228 | A packet field written as `str(p)` is counted as packet `p` |
| Pipeline.Publish | main.py:233-271 | Step three never touches the counters or the file: it either appends the decoded record to the ring or stops at a raising column |
| Pipeline.Ingest | main.py:357-361 | A line that strips to nothing is refused with 400 "empty"; any other line is handled stripped |
| Pipeline.IngestIgnoresPadding | main.py:358 | Whitespace around an ingested line changes neither the refusal nor the handling |
| Pipeline.LineEffect | main.py:211-231 | One line changes the receive count by one exactly when accepted, never lowers loss, keeps CSV readiness, and writes to the file only when accepted and ready |
| Pipeline.RunCounters | main.py:211-231 | Over any run of lines, the receive count grows by the number of accepted lines and loss never decreases |
| Pipeline.RunCsv | main.py:218-221 | With the file ready, a run appends exactly its accepted lines, each with CR LF, after what was already written; without it, the file is left alone |
| Pipeline.ShortLineChangesNothing | main.py:212-216 | A line with fewer than 21 commas changes neither the counters nor the file |
| Pipeline.DecodedIsBuilt | main.py:233-266 | A decoded record is the one built from the line's fields with the updated counters |
| Text.Strip | main.py:212 | `strip()` leaves no whitespace at either end and never lengthens |
| Text.StripDecomposes | main.py:212 | A string is its leading whitespace, its stripped middle, then its trailing whitespace |
| Text.StripUnique | main.py:212 | Stripping whitespace-padded trimmed text gives back that text |
| Text.StripPadded | main.py:358 | Extra whitespace around a string does not change what it strips to |
| Text.StripKeepsAbsent | main.py:212 | Stripping never introduces a character, so stripped fields stay comma-free |
| Text.Split | main.py:212 | `split(",")` gives one part per separator plus one, no part contains the separator, and joining the parts rebuilds the string |
| Text.SplitJoin | main.py:212 | Splitting the join of separator-free parts gives those parts back |
| Text.NatToDecimal | main.py:408 | `str(n)` is a non-empty digit string with value `n` and no leading zero |
| Text.ParseIntRoundTrip | main.py:226 | `int(str(n)) == n` for every integer |
| Text.ParseInt | main.py:226 | `int()` on a stripped field, as an optional sign then ASCII digits: a value exactly when the text has that form; unsigned digits and digits after a leading plus give their decimal value, digits after a leading minus give its negation, and a negative result only comes from a leading minus |
| Text.ZFill | main.py:402 | `zfill(w)` pads on the left with zeros to width `w` and keeps the original as its suffix |
| Text.ZFillValue | main.py:402 | Zero-filling a digit string keeps its value |
| Text.Pad4 | main.py:343 | `{n:04}` is a digit string with value `n`, exactly as long as `str(n)` or four characters when that is shorter |
| Uplink.CommandFrame | main.py:343 | The uplink frame of an operator command: `CMD,1043,` then the stripped command; pinned by CommandRoundTrip and UnframeCommandRoundTrip |
| Uplink.UnframeCommand | main.py:343 | Reads the body back from a frame exactly when the frame starts with `CMD,1043,` |
| Uplink.CommandRoundTrip | main.py:343 | Framing a command and reading it back yields the command with surrounding whitespace removed |
| Uplink.UnframeCommandRoundTrip | main.py:343 | Every frame whose body is already trimmed is the frame of that body |
| Uplink.CommandIgnoresPadding | main.py:343 | Commands equal up to surrounding whitespace give the same frame |
| Uplink.ApiCommand | main.py:341-346 | The frame sent carries the stripped command; it becomes `last_cmd` and is queued behind everything already waiting; nothing else changes |
| Uplink.WriteFrame | main.py:178-193 | On a working link the frame goes out followed by CR LF and is appended to the log ring as an uplink entry; with no port, or when the write raises, nothing is sent or logged and the viewers are alerted |
| Uplink.CommandReachesRadio | main.py:341-346 | A command written on a working link is the newest log entry, and both that entry and the text on the wire, minus CR LF, read back to the stripped command |
| Uplink.SimPayload | main.py:285-287 | A line is skipped exactly when it strips to nothing or starts with `#`; otherwise its payload is the stripped line, which is non-empty and not a comment |
| Uplink.SimPayloads | main.py:284-288 | A file yields at most one payload per line, each trimmed, non-empty and not a comment |
| Uplink.SimPayloadsSingle | main.py:285-288 | A single line yields exactly its stripped text, or nothing when it is blank or a comment; with SimPayloadsAppend this fixes a file's payloads as its stripped non-skipped lines in file order |
| Uplink.SimPayloadsAppend | main.py:284-288 | The payloads of a file read in pieces are the pieces' payloads in order |
| Uplink.SimPayloadsEmpty | main.py:284-287 | A file sends no reading exactly when every line is blank or a comment |
| Uplink.SimPayloadIgnoresNewline | main.py:284-285 | A line read with its newline terminator gives the same payload as without it |
| Uplink.SimFrame | main.py:288 | The frame of one simulated reading: `CMD,1043,SIMP,` then the payload; pinned by SimFrameRoundTrip and UnframeSim |
| Uplink.UnframeSim | main.py:288 | Reading a simulation frame back gives a payload that frames to the same text |
| Uplink.SimFrameRoundTrip | main.py:288 | Every payload is recovered from its `SIMP` frame |
| Uplink.SimFramesDecode | main.py:288 | The frames of a run of payloads, one per payload in order, each read back to the payload at the same position |
| Uplink.SendLines | main.py:283-289 | The loop queues exactly the frames of the file's non-skipped lines, in file order, after the existing queue |
| Uplink.SimSender | main.py:274-290 | The enable and activate frames are always queued first; the file's frames follow only when the file exists |
| Uplink.SimScheduleShape | main.py:274-290 | At most two frames more than the file has lines; every frame after the first two carries a non-empty, non-comment reading |
| CsvFiles.TranslateNewlines | main.py:132 | Writing text with `newline="\r\n"`: every LF becomes CR LF and every other character is kept; pinned by TranslateAppend, TranslateLength and TranslateTerminated |
| CsvFiles.TranslateAppend | main.py:132 | Newline translation of a concatenation is the concatenation of the translations |
| CsvFiles.TranslateLength | main.py:132 | Translation adds exactly one character per LF and leaves LF-free text unchanged |
| CsvFiles.TranslateChanges | main.py:412 | Text containing an LF never survives the translation unchanged |
| CsvFiles.TranslateTerminated | main.py:132 | A CR LF in the text comes out as CR CR LF |
| CsvFiles.TranslateAll | main.py:411-412 | Each row translated on its own; rows without an LF come out unchanged |
| CsvFiles.TranslateJoin | main.py:411-412 | Translating rows joined by CR LF gives the translated rows joined by CR CR LF |
| CsvFiles.EnsureCsvHeader | main.py:130-134 | A missing file is created holding just the header line with CR LF; an existing file is never rewritten; rows may be appended afterwards; nothing else changes (corrected; see ## Findings) |
| CsvFiles.EnsureCsvHeaderAsWritten | main.py:130-134 | Start-up as the code writes it: an existing file is untouched and the state is marked ready |
| CsvFiles.HeaderAsWrittenDoublesCR | main.py:132 | As written, a new file's header line ends in CR CR LF and differs from the intended one |
| CsvFiles.EnsureCsvHeaderIdempotent | main.py:130-134 | Running start-up twice is running it once |
| CsvFiles.LiveFileContents | main.py:130-134 | From a missing file, after start-up and any run of lines, the file holds the header and then each accepted line, each terminated by CR LF (corrected; see ## Findings) |
| CsvFiles.Naming | main.py:399-401 | Marks, for every row, whether its first field before the first comma, stripped, is a non-empty digit string |
| CsvFiles.ChooseTeamId | main.py:398-403 | The snapshot's team tag is a digit string of at least four characters |
| CsvFiles.ChooseTeamIdFirst | main.py:398-403 | The tag is the zero-filled first field of the first row that has a numeric first field |
| CsvFiles.ChooseTeamIdValue | main.py:402 | That tag has the same numeric value as the row's field |
| CsvFiles.ChooseTeamIdDefault | main.py:398 | Without such a row the tag is the station's own `1043` |
| CsvFiles.FlightName | main.py:405-408 | The candidate names: `Flight_<tag>.csv` first, then `Flight_<tag>(k).csv` for k = 1, 2, ...; pinned by FlightNameInjective and FindFreeName |
| CsvFiles.FlightNameInjective | main.py:405-409 | Different suffixes give different file names |
| CsvFiles.FindFreeName | main.py:405-409 | The search ends with a name not taken, and every candidate before it was taken |
| CsvFiles.SaveContent | main.py:411 | The composed snapshot text: the header, CR LF, the rows joined by CR LF, and a final CR LF; pinned by SaveContentLines |
| CsvFiles.SaveContentAsWritten | main.py:411-412 | The snapshot text as `write_text` stores it, newline-translated; pinned by SaveContentAsWrittenLines and SaveContentAsWrittenDiffers |
| CsvFiles.SaveContentLines | main.py:411 | For a non-empty snapshot, the header and every row are each terminated by CR LF |
| CsvFiles.SaveContentAsWrittenDiffers | main.py:411-412 | As written, no snapshot is stored as composed |
| CsvFiles.SaveContentAsWrittenLines | main.py:411-412 | As written, a snapshot on disk is the translated header, CR CR LF, the rows each translated and joined by CR CR LF, and a final CR CR LF |
| CsvFiles.SaveNow | main.py:386-413 | No rows means 400 "no rows"; otherwise the snapshot goes to the first free name for its team tag, and the content is the header and every row, each ended by CR LF (corrected; see ## Findings) |
| CsvFiles.SnapshotMatchesLiveFile | main.py:130-134 | Saving the accepted lines of a run reproduces the live file byte for byte (corrected; see ## Findings) |

## Left out

- The UTF-8 decode of each framed line (with `errors="ignore"`) is not modelled. Framing works on bytes, and handling works on the decoded text.
- Framing.DataReceived: removes trailing CRs from the raw bytes, while the code decodes first and strips CRs from the decoded text. The two differ when undecodable bytes follow a CR. For example, `A`, CR, byte 0xFF, LF gives the line "A" in the code, but the model leaves the CR on the line. That CR would then reach the CSV row and the raw line of the record.
- Pipeline.HandleLine: the CSV append always succeeds in the model. In the code, a failing append raises and aborts the handler before the counters change. This can be a permission error, or an encoding error from a lone surrogate sent through `/api/ingest`.
- Uplink.WriteFrame: the frame always encodes in the model. In the code, the frame plus CR LF is encoded before the `try` around the write. A command holding a lone surrogate, which `/api/command` accepts, would raise there. That ends the writer task, which is started only once, with no alert and no log entry, and no later queued frame is ever written. A Dafny `char` cannot hold a lone surrogate, so the model cannot express this.
- Serial transport management is not modelled: opening, reconnecting, and closing on a configuration change. These are I/O. The writer task is modelled one frame at a time by `Uplink.WriteFrame`, with the link's condition as a parameter. The queue it waits on and its lock are not modelled.
- WebSocket broadcast, viewer bookkeeping and the keep-alive ping are not modelled. They are network I/O with no effect on the modelled state.
- The remaining FastAPI plumbing is not modelled: health, port listing, baud listing, configuration read, simulation start, and opening the data folder. Each only reads state, starts a task, or starts an external viewer process.
- Clocks, sleeps and logging are not modelled. The receive timestamp is a parameter `stamp`, and `Pipeline.Run` takes one per line.
- Task interleaving is not modelled. Each serial line starts its own task. The CSV append and the counter update run before the task's first suspension, so they happen in line order. The ring append comes after the broadcast await, so under slow viewers its order could differ from line order. `Pipeline.Run` handles lines strictly one after another.
- Ring entries are structured values. The JSON text the code stores is not modelled.
- The file system is not modelled. A file is `None` or the list of texts written to it. A directory is the set of names that exist.
- Text.ParseInt: accepts only an optional sign followed by ASCII digits. It does not accept underscores or non-ASCII digits, which Python's `int()` also takes. It also accepts digit strings of any length, while Python refuses those over 4300 digits. For such a packet field the code counts packet 0 and then the record fails.
- Records.FieldFloat: checks a simplified float-literal grammar and keeps the literal text, not the binary floating-point value.
- Text.IsDigits: treats only ASCII `0`-`9` as digits, while Python's `isdigit` also accepts other Unicode digits.
- Text.Pad4: covers natural numbers only. The team number is positive.
- CsvFiles.SaveNow: treats a missing `rows` key and an empty list alike, as the code does via `or []`. A non-list value is not modelled.
- CsvFiles.TranslateNewlines: models only the newline translation of `write_text` on the text. The file's encoding is not modelled.

## Findings

| source | as written | input that shows it | evidently intended | confidence | as-written member | corrected member |
|---|---|---|---|---|---|---|
| main.py:132 | The header line already ends in CR LF, and `write_text` is called with `newline="\r\n"`, so its LF is translated once more | Start-up with no existing flight file: the file begins with the header followed by CR CR LF | The header followed by CR LF, matching the CR LF rows appended at main.py:221 without translation | high, not executed | CsvFiles.EnsureCsvHeaderAsWritten, CsvFiles.HeaderAsWrittenDoublesCR | CsvFiles.EnsureCsvHeader, CsvFiles.LiveFileContents |
| main.py:411-412 | The snapshot text joins its lines with CR LF and is then written with `newline="\r\n"`, so on disk the header, every row separator and the final terminator are CR CR LF (for rows without an LF, every line ends in CR CR LF) | Any non-empty `rows`, e.g. one row `1043,00:00:01,1`: the stored text differs from the composed one and every line ends CR CR LF | Each line ended by CR LF, identical to the live file's text | high, not executed | CsvFiles.SaveContentAsWritten, CsvFiles.SaveContentAsWrittenLines, CsvFiles.TranslateJoin, CsvFiles.SaveContentAsWrittenDiffers | CsvFiles.SaveNow, CsvFiles.SaveContentLines, CsvFiles.SnapshotMatchesLiveFile |

=== FILE: csvfiles.dfy ===
/**
 * The flight CSV files: creating the live file with its header at start-up
 * (`ensure_csv_header`) and writing a browser-supplied snapshot to a fresh
 * `Flight_<team>[(<k>)].csv` (`POST /api/csv/save-now`).
 *
 * Both writes go through `Path.write_text(..., newline="\r\n")`, which turns
 * every LF of the text into CR LF. The text already ends its lines in CR LF,
 * so what lands on disk ends them in CR CR LF. `...AsWritten` members model
 * that; the others write the CR LF the rest of the program uses, and the
 * rest of the model builds on them.
 */
module CsvFiles {
  import opened Wrappers
  import opened Seqs
  import opened Text
  import opened Station
  import opened Pipeline

  // ---------------------------------------------------------------- newline translation

  /** The replacement text for one character: CR LF for an LF, the character itself otherwise. */
  function Expand(s: string): (pieces: seq<string>)
    ensures |pieces| == |s|
  {
    seq(|s|, k requires 0 <= k < |s| => if s[k] == '\n' then "\r\n" else [s[k]])
  }

  /** Text-mode writing with `newline="\r\n"`: every LF becomes CR LF, everything else is kept. */
  function TranslateNewlines(s: string): (t: string)
  {
    Concat(Expand(s))
  }

  lemma TranslateAppend(a: string, b: string)
    ensures TranslateNewlines(a + b) == TranslateNewlines(a) + TranslateNewlines(b)
  {
    assert Expand(a + b) == Expand(a) + Expand(b);
    ConcatAppend(Expand(a), Expand(b));
  }

  /** The translation adds exactly one character per LF, and changes nothing in text without LF. */
  lemma {:induction false} TranslateLength(s: string)
    ensures |TranslateNewlines(s)| == |s| + multiset(s)['\n']
    ensures '\n' !in s ==> TranslateNewlines(s) == s
    decreases |s|
  {
    if |s| == 0 {
      assert Expand(s) == [];
    } else {
      assert s == [s[0]] + s[1..];
      TranslateAppend([s[0]], s[1..]);
      var e := Expand([s[0]])[0];
      assert Expand([s[0]]) == [e];
      assert [e][1..] == [];
      assert TranslateNewlines([s[0]]) == e + Concat([]);
      assert multiset(s) == multiset([s[0]]) + multiset(s[1..]);
      if s[0] == '\n' {
        assert |e| == 2 && multiset([s[0]])['\n'] == 1;
      } else {
        assert |e| == 1 && multiset([s[0]])['\n'] == 0;
      }
      TranslateLength(s[1..]);
    }
  }

  /** Text with an LF in it never survives the translation unchanged. */
  lemma TranslateChanges(s: string)
    requires '\n' in s
    ensures TranslateNewlines(s) != s
  {
    TranslateLength(s);
    assert multiset(s)['\n'] > 0;
  }

  // ---------------------------------------------------------------- the live file

  /** The first text of a new flight file: the header line. */
  function HeaderLine(): string
  {
    CSV_HEADER + CRLF
  }

  /**
   * `ensure_csv_header`: a missing file is created holding just the header
   * line; an existing file is left as it is; either way rows may now be appended.
   */
  function EnsureCsvHeader(s: Session): (r: Session)
    ensures r.state == s.state.(csvReady := true) && r.ring == s.ring
    ensures s.csv.None? ==> r.csv.Some? && Written(r.csv) == [HeaderLine()]
    ensures s.csv.Some? ==> r.csv == s.csv
  {
    var csv := if s.csv.None? then Some([HeaderLine()]) else s.csv;
    Session(s.state.(csvReady := true), csv, s.ring)
  }

  /** `ensure_csv_header` as written: the header line passes through the newline translation. */
  function EnsureCsvHeaderAsWritten(s: Session): (r: Session)
    ensures r.state == s.state.(csvReady := true) && r.ring == s.ring
    ensures s.csv.Some? ==> r.csv == s.csv
  {
    var csv := if s.csv.None? then Some([TranslateNewlines(HeaderLine())]) else s.csv;
    Session(s.state.(csvReady := true), csv, s.ring)
  }

  /** Translating a CR LF-terminated text: the translated text, then CR CR LF, then the translated rest. */
  lemma TranslateTerminated(line: string, rest: string)
    ensures TranslateNewlines(line + CRLF + rest) == TranslateNewlines(line) + "\r\r\n" + TranslateNewlines(rest)
  {
    TranslateAppend(line + CRLF, rest);
    TranslateAppend(line, CRLF);
    assert Expand(CRLF) == ["\r", "\r\n"];
    assert TranslateNewlines(CRLF) == "\r" + ("\r\n" + []);
  }

  lemma TranslateLine(line: string)
    ensures TranslateNewlines(line + CRLF) == TranslateNewlines(line) + "\r\r\n"
  {
    TranslateTerminated(line, []);
    assert line + CRLF + [] == line + CRLF;
    assert Expand([]) == [];
  }

  /** Every row translated on its own; rows without LF come out unchanged. */
  function TranslateAll(rows: seq<string>): (ts: seq<string>)
    ensures |ts| == |rows|
    ensures forall k :: 0 <= k < |rows| ==> ts[k] == TranslateNewlines(rows[k])
    ensures (forall k :: 0 <= k < |rows| ==> '\n' !in rows[k]) ==> ts == rows
  {
    forall k | 0 <= k < |rows| && '\n' !in rows[k]
      ensures TranslateNewlines(rows[k]) == rows[k]
    {
      TranslateLength(rows[k]);
    }
    seq(|rows|, k requires 0 <= k < |rows| => TranslateNewlines(rows[k]))
  }

  /** Translating rows joined by CR LF gives the translated rows joined by CR CR LF. */
  lemma {:induction false} TranslateJoin(rows: seq<string>)
    ensures TranslateNewlines(Join(rows, CRLF)) == Join(TranslateAll(rows), "\r\r\n")
    decreases |rows|
  {
    if |rows| == 0 {
      assert Expand([]) == [];
    } else if |rows| == 1 {
      assert Join(rows, CRLF) == rows[0];
      assert Join(TranslateAll(rows), "\r\r\n") == TranslateAll(rows)[0];
    } else {
      var rest := Join(rows[1..], CRLF);
      assert Join(rows, CRLF) == rows[0] + CRLF + rest;
      TranslateTerminated(rows[0], rest);
      TranslateJoin(rows[1..]);
      assert TranslateAll(rows)[1..] == TranslateAll(rows[1..]);
    }
  }

  lemma TranslateNotShorter(s: string)
    ensures |TranslateNewlines(s)| >= |s|
  {
    TranslateLength(s);
  }

  /**
   * As written, a new file's header line ends in CR CR LF instead of CR LF,
   * and the file differs from the intended one. The header literal contains
   * no LF, so in practice only the terminator changes; that last fact is a
   * remark about the literal and is not stated here.
   */
  lemma HeaderAsWrittenDoublesCR(s: Session)
    requires s.csv.None?
    ensures Written(EnsureCsvHeaderAsWritten(s).csv) == [TranslateNewlines(CSV_HEADER) + "\r\r\n"]
    ensures Written(EnsureCsvHeaderAsWritten(s).csv) != Written(EnsureCsvHeader(s).csv)
  {
    TranslateLine(CSV_HEADER);
    TranslateNotShorter(CSV_HEADER);
  }

  /** Creating the header twice is creating it once. */
  lemma EnsureCsvHeaderIdempotent(s: Session)
    ensures EnsureCsvHeader(EnsureCsvHeader(s)) == EnsureCsvHeader(s)
  {
  }

  /** Start-up, then any run of lines: the file is the header line followed by each accepted line with CR LF. */
  lemma {:induction false} LiveFileContents(s: Session, lines: seq<string>, stamps: seq<string>)
    requires s.csv.None? && |stamps| == |lines|
    ensures var file := Run(EnsureCsvHeader(s), lines, stamps).csv;
      file.Some? && Written(file) == Terminate([CSV_HEADER] + AcceptedLines(lines), CRLF)
  {
    var s0 := EnsureCsvHeader(s);
    RunCsv(s0, lines, stamps);
    TerminateAppend([CSV_HEADER], AcceptedLines(lines), CRLF);
  }

  // ---------------------------------------------------------------- save-now

  /** The first comma field of a row, stripped. */
  function FirstField(row: string): string
  {
    Strip(Split(row, ',')[0])
  }

  /** A row names its team when its first field, stripped, is a non-empty run of digits. */
  predicate NamesTeam(row: string)
  {
    IsDigits(FirstField(row))
  }

  /** For each row, whether it names its team. */
  function Naming(rows: seq<string>): (flags: seq<bool>)
    ensures |flags| == |rows|
    ensures forall j :: 0 <= j < |rows| ==> flags[j] == NamesTeam(rows[j])
  {
    seq(|rows|, j requires 0 <= j < |rows| => NamesTeam(rows[j]))
  }

  /**
   * The team tag of a snapshot: the rows are scanned in order and the first
   * one that names its team gives the tag, zero-filled to four places; with
   * no such row the station's own tag is used.
   */
  function ChooseTeamId(rows: seq<string>): (id: string)
    ensures IsDigits(id) && |id| >= 4
  {
    var k := FirstTrue(Naming(rows), 0);
    if k < |rows| then
      var f := FirstField(rows[k]);
      assert AllDigits(ZFill(f, 4)) by { ZFillValue(f, 4); }
      ZFill(f, 4)
    else
      TeamTagIsPadded();
      TEAM_TAG
  }

  /** The tag comes from the first row that names its team. */
  lemma ChooseTeamIdFirst(rows: seq<string>, k: nat)
    requires k < |rows| && NamesTeam(rows[k])
    requires forall j :: 0 <= j < k ==> !NamesTeam(rows[j])
    ensures ChooseTeamId(rows) == ZFill(FirstField(rows[k]), 4)
  {
    FirstTrueUnique(Naming(rows), 0, k);
  }

  /** The tag has the value of the team number the row gives. */
  lemma ChooseTeamIdValue(rows: seq<string>, k: nat)
    requires k < |rows| && NamesTeam(rows[k])
    requires forall j :: 0 <= j < k ==> !NamesTeam(rows[j])
    ensures DigitsValue(ChooseTeamId(rows)) == DigitsValue(FirstField(rows[k]))
  {
    ChooseTeamIdFirst(rows, k);
    ZFillValue(FirstField(rows[k]), 4);
  }

  /** Without a row that names its team, the station's own tag is used. */
  lemma ChooseTeamIdDefault(rows: seq<string>)
    requires forall j :: 0 <= j < |rows| ==> !NamesTeam(rows[j])
    ensures ChooseTeamId(rows) == TEAM_TAG
  {
    FirstTrueUnique(Naming(rows), 0, |rows|);
  }

  /** The k-th candidate file name: no suffix first, then `(1)`, `(2)`, and so on. */
  function FlightName(id: string, k: nat): string
  {
    if k == 0 then "Flight_" + id + ".csv"
    else "Flight_" + id + "(" + NatToDecimal(k) + ").csv"
  }

  /** Different suffixes give different names, so the search below never revisits a name. */
  lemma FlightNameInjective(id: string, j: nat, k: nat)
    requires FlightName(id, j) == FlightName(id, k)
    ensures j == k
  {
    if j != 0 && k != 0 {
      var p := "Flight_" + id;
      var n := FlightName(id, j);
      assert n[|p| + 1..|n| - 5] == NatToDecimal(j);
      assert n[|p| + 1..|n| - 5] == NatToDecimal(k);
    }
  }

  /** The names tried before suffix `k`. */
  function Tried(id: string, k: nat): set<string>
  {
    set j | 0 <= j < k :: FlightName(id, j)
  }

  lemma TriedGrows(id: string, k: nat)
    ensures Tried(id, k + 1) == Tried(id, k) + {FlightName(id, k)}
    ensures FlightName(id, k) !in Tried(id, k)
  {
    if FlightName(id, k) in Tried(id, k) {
      var j :| 0 <= j < k && FlightName(id, j) == FlightName(id, k);
      FlightNameInjective(id, j, k);
    }
  }

  /** The save path search: the first candidate name not already taken. */
  method FindFreeName(id: string, existing: set<string>) returns (name: string, k: nat)
    ensures name == FlightName(id, k) && name !in existing
    ensures forall j :: 0 <= j < k ==> FlightName(id, j) in existing
  {
    k := 0;
    name := FlightName(id, 0);
    while name in existing
      invariant name == FlightName(id, k)
      invariant Tried(id, k) <= existing
      decreases existing - Tried(id, k)
    {
      TriedGrows(id, k);
      k := k + 1;
      name := FlightName(id, k);
    }
    assert forall j :: 0 <= j < k ==> FlightName(id, j) in Tried(id, k);
  }

  /** The snapshot text: the header line, then every row, each ended by CR LF. */
  function SaveContent(rows: seq<string>): string
  {
    CSV_HEADER + CRLF + Join(rows, CRLF) + CRLF
  }

  /** For a non-empty snapshot, every line, header included, is terminated by CR LF. */
  lemma SaveContentLines(rows: seq<string>)
    requires |rows| > 0
    ensures SaveContent(rows) == Concat(Terminate([CSV_HEADER] + rows, CRLF))
  {
    JoinTerminated(rows, CRLF);
    TerminateAppend([CSV_HEADER], rows, CRLF);
    ConcatAppend(Terminate([CSV_HEADER], CRLF), Terminate(rows, CRLF));
    assert Concat(Terminate([CSV_HEADER], CRLF)) == CSV_HEADER + CRLF;
  }

  /** The snapshot text as `write_text` leaves it on disk. */
  function SaveContentAsWritten(rows: seq<string>): string
  {
    TranslateNewlines(SaveContent(rows))
  }

  /** As written, no snapshot is stored as composed: at least the header's terminator gains a CR. */
  lemma SaveContentAsWrittenDiffers(rows: seq<string>)
    ensures SaveContentAsWritten(rows) != SaveContent(rows)
  {
    var c := SaveContent(rows);
    assert c[|c| - 1] == '\n';
    TranslateChanges(c);
  }

  /**
   * As written, the header line of a snapshot ends in CR CR LF, every row
   * separator becomes CR CR LF, and so does the final terminator.
   */
  lemma SaveContentAsWrittenLines(rows: seq<string>)
    ensures SaveContentAsWritten(rows) ==
      TranslateNewlines(CSV_HEADER) + "\r\r\n" + Join(TranslateAll(rows), "\r\r\n") + "\r\r\n"
  {
    var body := Join(rows, CRLF);
    assert SaveContent(rows) == CSV_HEADER + CRLF + (body + CRLF + []);
    TranslateTerminated(CSV_HEADER, body + CRLF + []);
    TranslateTerminated(body, []);
    TranslateJoin(rows);
  }

  /** What a successful save reports: the file name chosen, its suffix, and the composed text, before `write_text` translates its newlines. */
  datatype Saved = Saved(name: string, suffix: nat, content: string)

  /**
   * `POST /api/csv/save-now`: an empty (or missing) row list is refused with
   * 400; otherwise the snapshot goes to the first free candidate name for
   * its team tag.
   */
  method SaveNow(rows: seq<string>, existing: set<string>) returns (r: Result<Saved, HttpError>)
    ensures r.Failure? <==> rows == []
    ensures r.Failure? ==> r.error == HttpError(400, "no rows")
    ensures r.Success? ==> r.value.name == FlightName(ChooseTeamId(rows), r.value.suffix)
    ensures r.Success? ==> r.value.name !in existing
    ensures r.Success? ==> forall j :: 0 <= j < r.value.suffix ==> FlightName(ChooseTeamId(rows), j) in existing
    ensures r.Success? ==> r.value.content == Concat(Terminate([CSV_HEADER] + rows, CRLF))
  {
    if rows == [] {
      return Failure(HttpError(400, "no rows"));
    }
    var id := ChooseTeamId(rows);
    var name, k := FindFreeName(id, existing);
    SaveContentLines(rows);
    r := Success(Saved(name, k, SaveContent(rows)));
  }

  /**
   * Saving the rows the live file received reproduces the live file: after
   * start-up with no file and any run with at least one accepted line, the
   * snapshot text of the accepted lines equals the live file's text.
   */
  lemma SnapshotMatchesLiveFile(s: Session, lines: seq<string>, stamps: seq<string>)
    requires s.csv.None? && |stamps| == |lines| && |AcceptedLines(lines)| > 0
    ensures Concat(Written(Run(EnsureCsvHeader(s), lines, stamps).csv)) == SaveContent(AcceptedLines(lines))
  {
    LiveFileContents(s, lines, stamps);
    SaveContentLines(AcceptedLines(lines));
  }
}

=== FILE: framing.dfy ===
/**
 * Serial line framing (`LineReader.data_received`): incoming bytes are
 * appended to a buffer, every complete LF-terminated chunk is split off as a
 * line with its trailing CRs removed, and the unterminated tail stays behind.
 */
module Framing {
  import opened Seqs

  type byte = b: int | 0 <= b < 256

  const LF: byte := 10
  const CR: byte := 13

  /** No line contains an LF. */
  predicate LineFree(lines: seq<seq<byte>>)
  {
    forall k :: 0 <= k < |lines| ==> LF !in lines[k]
  }

  lemma FrameCons(x: seq<byte>, lines: seq<seq<byte>>, tail: seq<byte>, rest: seq<byte>)
    requires LF !in x && LineFree(lines)
    requires Concat(Terminate(lines, [LF])) + tail == rest
    ensures LineFree([x] + lines)
    ensures Concat(Terminate([x] + lines, [LF])) + tail == x + [LF] + rest
  {
    ConcatTerminateCons(x, lines, [LF]);
  }

  /**
   * Reference decomposition of a buffer: the LF-free chunks that each end in
   * an LF, and the LF-free tail.
   */
  function Partition(b: seq<byte>): (r: (seq<seq<byte>>, seq<byte>))
    ensures LF !in r.1
    ensures LineFree(r.0)
    ensures Concat(Terminate(r.0, [LF])) + r.1 == b
    decreases |b|
  {
    if LF in b then
      var i := IndexOf(b, LF);
      var p := Partition(b[i + 1..]);
      FrameCons(b[..i], p.0, p.1, b[i + 1..]);
      assert b == b[..i] + [LF] + b[i + 1..];
      ([b[..i]] + p.0, p.1)
    else
      assert Concat(Terminate([], [LF])) == [];
      ([], b)
  }

  /** The decomposition is unique: any LF-free lines and LF-free tail that rebuild `b` are Partition's. */
  lemma {:induction false} PartitionUnique(lines: seq<seq<byte>>, rest: seq<byte>)
    requires LineFree(lines)
    requires LF !in rest
    ensures Partition(Concat(Terminate(lines, [LF])) + rest) == (lines, rest)
    decreases |lines|
  {
    var t := Terminate(lines, [LF]);
    if |lines| == 0 {
      assert Concat(t) + rest == rest;
    } else {
      var tail := Concat(Terminate(lines[1..], [LF])) + rest;
      assert t[1..] == Terminate(lines[1..], [LF]);
      assert Concat(t) + rest == lines[0] + [LF] + tail;
      IndexOfSplit(lines[0], LF, tail);
      var b := lines[0] + [LF] + tail;
      assert b[..|lines[0]|] == lines[0];
      assert b[|lines[0]| + 1..] == tail;
      PartitionUnique(lines[1..], rest);
      assert lines == [lines[0]] + lines[1..];
    }
  }

  /** Python's `s.rstrip("\r")`: drops every trailing CR. */
  function StripTrailingCR(line: seq<byte>): (r: seq<byte>)
    ensures |r| <= |line| && r == line[..|r|]
    ensures forall k :: |r| <= k < |line| ==> line[k] == CR
    ensures r == [] || r[|r| - 1] != CR
    decreases |line|
  {
    if |line| > 0 && line[|line| - 1] == CR then StripTrailingCR(line[..|line| - 1]) else line
  }

  /** One step of the framing loop: the first chunk, then the framing of what follows its LF. */
  lemma PartitionStep(b: seq<byte>)
    requires LF in b
    ensures var i := IndexOf(b, LF);
      Partition(b) == ([b[..i]] + Partition(b[i + 1..]).0, Partition(b[i + 1..]).1)
  {
  }

  /** The framed lines with trailing CRs removed, in order. */
  function Cleaned(raws: seq<seq<byte>>): (lines: seq<seq<byte>>)
    ensures |lines| == |raws|
    ensures forall k :: 0 <= k < |raws| ==> lines[k] == StripTrailingCR(raws[k])
  {
    seq(|raws|, k requires 0 <= k < |raws| => StripTrailingCR(raws[k]))
  }

  lemma CleanedAppend(raws: seq<seq<byte>>, x: seq<byte>)
    ensures Cleaned(raws + [x]) == Cleaned(raws) + [StripTrailingCR(x)]
  {
  }

  /** The framing loop's invariant survives splitting off the first chunk of `b`. */
  lemma AdvanceFrame(whole: seq<byte>, raws: seq<seq<byte>>, b: seq<byte>)
    requires LF in b
    requires Partition(whole).0 == raws + Partition(b).0
    requires Partition(whole).1 == Partition(b).1
    ensures var i := IndexOf(b, LF);
      Partition(whole).0 == (raws + [b[..i]]) + Partition(b[i + 1..]).0
    ensures Partition(whole).1 == Partition(b[IndexOf(b, LF) + 1..]).1
  {
    PartitionStep(b);
  }

  /**
   * `data_received`: the loop splits at the first LF while one remains. The
   * emitted lines are Partition's chunks with trailing CRs removed, and the
   * new buffer is Partition's tail.
   */
  method DataReceived(buf: seq<byte>, data: seq<byte>) returns (lines: seq<seq<byte>>, buf': seq<byte>)
    ensures lines == Cleaned(Partition(buf + data).0)
    ensures buf' == Partition(buf + data).1
  {
    ghost var whole := buf + data;
    var b := buf + data;
    lines := [];
    ghost var raws: seq<seq<byte>> := [];
    assert raws + Partition(b).0 == Partition(b).0;
    while LF in b
      invariant Partition(whole).0 == raws + Partition(b).0
      invariant Partition(whole).1 == Partition(b).1
      invariant lines == Cleaned(raws)
      decreases |b|
    {
      var i := IndexOf(b, LF);
      AdvanceFrame(whole, raws, b);
      CleanedAppend(raws, b[..i]);
      raws := raws + [b[..i]];
      lines := lines + [StripTrailingCR(b[..i])];
      b := b[i + 1..];
    }
    assert Partition(b) == ([], b);
    buf' := b;
  }

  /** Every emitted line is free of LFs and does not end in a CR. */
  lemma DataReceivedLines(buf: seq<byte>, data: seq<byte>)
    ensures forall k :: 0 <= k < |Cleaned(Partition(buf + data).0)| ==>
      var line := Cleaned(Partition(buf + data).0)[k];
      LF !in line && (line == [] || line[|line| - 1] != CR)
  {
    var raws := Partition(buf + data).0;
    forall k | 0 <= k < |raws|
      ensures LF !in Cleaned(raws)[k]
    {
      var r := StripTrailingCR(raws[k]);
      assert LF !in raws[k];
      assert forall j :: 0 <= j < |r| ==> r[j] == raws[k][j];
    }
  }

  /**
   * Buffering across calls: framing `d1` and then `d2` emits the same lines,
   * in the same order, as framing `d1 + d2` at once, and leaves the same buffer.
   */
  lemma PartitionIncremental(buf: seq<byte>, d1: seq<byte>, d2: seq<byte>)
    ensures Partition(buf + d1 + d2).0 == Partition(buf + d1).0 + Partition(Partition(buf + d1).1 + d2).0
    ensures Partition(buf + d1 + d2).1 == Partition(Partition(buf + d1).1 + d2).1
  {
    var p1 := Partition(buf + d1);
    var p2 := Partition(p1.1 + d2);
    RebuildTwo(p1.0, p2.0, p1.1, p2.1, buf + d1, d2);
    assert buf + d1 + d2 == (buf + d1) + d2;
    PartitionUnique(p1.0 + p2.0, p2.1);
  }

  lemma RebuildTwo(l1: seq<seq<byte>>, l2: seq<seq<byte>>, r1: seq<byte>, r2: seq<byte>, b: seq<byte>, d: seq<byte>)
    requires LineFree(l1) && LineFree(l2)
    requires Concat(Terminate(l1, [LF])) + r1 == b
    requires Concat(Terminate(l2, [LF])) + r2 == r1 + d
    ensures LineFree(l1 + l2)
    ensures Concat(Terminate(l1 + l2, [LF])) + r2 == b + d
  {
    var t1 := Terminate(l1, [LF]);
    var t2 := Terminate(l2, [LF]);
    TerminateAppend(l1, l2, [LF]);
    ConcatAppend(t1, t2);
    calc {
      Concat(t1) + Concat(t2) + r2;
      Concat(t1) + (Concat(t2) + r2);
      Concat(t1) + (r1 + d);
      Concat(t1) + r1 + d;
    }
  }
}

=== FILE: logs.dfy ===
/**
 * The in-memory log ring behind `/api/logs`: a deque bounded at 10 000
 * entries that drops its oldest entry when full, and the clamped tail read.
 */
module Logs {
  import opened Wrappers
  import opened Records

  const RING_MAX: nat := 10000
  const TAIL_MIN: int := 1
  const TAIL_MAX: int := 5000
  const TAIL_DEFAULT: int := 500

  /** One ring entry: a rejected short line, the payload of a decoded record, or a frame written to the radio. */
  datatype LogEntry = BadLine(raw: string) | TelemetryEntry(record: Telemetry) | UplinkEntry(frame: string)

  type Ring = r: seq<LogEntry> | |r| <= RING_MAX

  /** `ring.append(e)` on a deque with `maxlen=10_000`. */
  function RingAppend(ring: Ring, e: LogEntry): (r: Ring)
    ensures |r| == if |ring| < RING_MAX then |ring| + 1 else RING_MAX
    ensures r == (ring + [e])[|ring| + 1 - |r|..]
    ensures r[|r| - 1] == e
  {
    if |ring| < RING_MAX then ring + [e] else (ring + [e])[1..]
  }

  /** `max(1, min(n, 5000))`. */
  function ClampTail(n: int): (c: int)
    ensures TAIL_MIN <= c <= TAIL_MAX
    ensures TAIL_MIN <= n <= TAIL_MAX ==> c == n
    ensures n < TAIL_MIN ==> c == TAIL_MIN
    ensures n > TAIL_MAX ==> c == TAIL_MAX
  {
    if n < TAIL_MIN then TAIL_MIN else if n > TAIL_MAX then TAIL_MAX else n
  }

  /** `list(ring)[-n:]` after clamping: the newest `min(n, |ring|)` entries, oldest first. */
  function LogTail(ring: Ring, n: int): (r: seq<LogEntry>)
    ensures |r| == if ClampTail(n) < |ring| then ClampTail(n) else |ring|
    ensures r == ring[|ring| - |r|..]
  {
    var c := ClampTail(n);
    if c < |ring| then ring[|ring| - c..] else ring
  }

  /** A tail read never returns more than 5000 entries, and the most recent entry is always in it. */
  lemma TailHoldsNewest(ring: Ring, e: LogEntry, n: int)
    ensures var t := LogTail(RingAppend(ring, e), n);
      0 < |t| <= TAIL_MAX && t[|t| - 1] == e
  {
    var r := RingAppend(ring, e);
    var t := LogTail(r, n);
    assert t[|t| - 1] == r[|r| - 1];
  }

  /** `GET /api/logs`: the clamped tail, 500 entries when the query gives no count. */
  function ApiLogs(ring: Ring, n: Option<int>): (r: seq<LogEntry>)
    ensures n.None? ==> |r| == if |ring| < TAIL_DEFAULT then |ring| else TAIL_DEFAULT
    ensures n.Some? ==> r == LogTail(ring, n.value)
    ensures r == ring[|ring| - |r|..]
  {
    LogTail(ring, n.GetOr(TAIL_DEFAULT))
  }
}

=== FILE: pipeline.dfy ===
/**
 * `handle_telemetry_line`: split and strip the comma fields, reject short
 * lines, then (in this order) append the raw line to the CSV file, update
 * the counters, and build the record, whose construction may still raise.
 */
module Pipeline {
  import opened Wrappers
  import opened Seqs
  import opened Text
  import opened Station
  import opened Sequencing
  import opened Records
  import opened Logs

  /**
   * The current flight CSV file: None while it does not exist, otherwise
   * the pieces of text written to it, in order.
   */
  type CsvFile = Option<seq<string>>

  function Written(f: CsvFile): seq<string>
  {
    f.GetOr([])
  }

  /** What the ingestion path owns: the counters, the CSV file and the log ring. */
  datatype Session = Session(state: GSState, csv: CsvFile, ring: Ring)

  /**
   * The three ways a line ends: rejected for too few fields, decoded into a
   * record (broadcast and logged), or raising while the record is built
   * (after the CSV append and the counter update have happened).
   */
  datatype Outcome = Short(fieldCount: nat) | Decoded(record: Telemetry) | FieldError(column: nat)

  datatype Step = Step(session: Session, outcome: Outcome)

  /** `int(parts[2])`, or 0 where that raises. */
  function PacketNumber(parts: seq<string>): (n: int)
    requires |parts| > 2
    ensures ParseInt(parts[2]).Some? ==> n == ParseInt(parts[2]).value
    ensures ParseInt(parts[2]).None? ==> n == 0
  {
    ParseInt(parts[2]).GetOr(0)
  }

  /** A packet field written as `str(p)` is counted as packet `p`. */
  lemma PacketNumberRoundTrip(parts: seq<string>, p: int)
    requires |parts| > 2 && parts[2] == IntToDecimal(p)
    ensures PacketNumber(parts) == p
  {
    ParseIntRoundTrip(p);
  }

  predicate Accepted(raw: string)
  {
    |Fields(raw)| >= MIN_FIELDS
  }

  function HandleLine(s: Session, raw: string, stamp: string): (r: Step)
    // rejection: only the ring changes
    ensures r.outcome.Short? <==> !Accepted(raw)
    ensures r.outcome.Short? ==> r.outcome.fieldCount == multiset(raw)[','] + 1
    ensures r.outcome.Short? ==> r.session == s.(ring := RingAppend(s.ring, BadLine(raw)))
    // acceptance: CSV append, then counters
    ensures Accepted(raw) ==> r.session.csv == if s.state.csvReady then Some(Written(s.csv) + [raw + CRLF]) else s.csv
    ensures Accepted(raw) ==> r.session.state.rxCount == s.state.rxCount + 1
    ensures Accepted(raw) ==> r.session.state.lastPkt == Some(PacketNumber(Fields(raw)))
    ensures Accepted(raw) ==> r.session.state.lossCount == s.state.lossCount + Gap(s.state.lastPkt, PacketNumber(Fields(raw)))
    ensures Accepted(raw) ==> r.session.state == s.state.(rxCount := r.session.state.rxCount,
                                                          lossCount := r.session.state.lossCount,
                                                          lastPkt := r.session.state.lastPkt)
    // a column that raises leaves the ring alone but keeps the CSV row and counters
    ensures r.outcome.FieldError? ==> r.session.ring == s.ring
    ensures r.outcome.FieldError? ==> r.outcome.column < NUM_COLUMNS && !ColumnOk(Fields(raw), r.outcome.column)
    // a decoded record carries the updated counters and agrees with the tracker
    ensures r.outcome.Decoded? ==> r.session.ring == RingAppend(s.ring, TelemetryEntry(r.outcome.record))
    ensures r.outcome.Decoded? ==> r.outcome.record.gsRxCount == r.session.state.rxCount
    ensures r.outcome.Decoded? ==> r.outcome.record.gsLossTotal == r.session.state.lossCount
    ensures r.outcome.Decoded? ==> r.session.state.lastPkt == Some(r.outcome.record.packetCount)
    ensures r.outcome.Decoded? ==> r.outcome.record.gsRawLine == raw && r.outcome.record.gsTimestamp == stamp
  {
    var parts := Fields(raw);
    if |parts| < MIN_FIELDS then
      Step(s.(ring := RingAppend(s.ring, BadLine(raw))), Short(|parts|))
    else
      var admitted := Admit(s, raw);
      Publish(admitted, raw, stamp)
  }

  /** Steps 1 and 2 of an accepted line: the CSV append, then the counter update. */
  function Admit(s: Session, raw: string): (r: Session)
    requires Accepted(raw)
    // the row goes to a ready file, after what is already there; otherwise the file is left alone
    ensures s.state.csvReady ==> r.csv.Some? && Written(r.csv) == Written(s.csv) + [raw + CRLF]
    ensures !s.state.csvReady ==> r.csv == s.csv
    // one more packet received; the tracker remembers it and loss grows by the forward gap
    ensures r.state.rxCount == s.state.rxCount + 1
    ensures r.state.lastPkt == Some(PacketNumber(Fields(raw)))
    ensures r.state.lossCount == s.state.lossCount + Gap(s.state.lastPkt, PacketNumber(Fields(raw)))
    // nothing else changes
    ensures r.state == s.state.(rxCount := r.state.rxCount, lossCount := r.state.lossCount, lastPkt := r.state.lastPkt)
    ensures r.ring == s.ring
  {
    var csv := if s.state.csvReady then Some(Written(s.csv) + [raw + CRLF]) else s.csv;
    Session(CountPacket(s.state, PacketNumber(Fields(raw))), csv, s.ring)
  }

  /** Step 3: build the record from the updated counters; log it, or stop where a column raises. */
  function Publish(s: Session, raw: string, stamp: string): (r: Step)
    requires Accepted(raw)
    ensures r.session.state == s.state && r.session.csv == s.csv
    ensures !r.outcome.Short?
    ensures r.outcome.FieldError? ==> r.session.ring == s.ring
    ensures r.outcome.FieldError? ==> r.outcome.column < NUM_COLUMNS && !ColumnOk(Fields(raw), r.outcome.column)
    ensures r.outcome.Decoded? ==> r.session.ring == RingAppend(s.ring, TelemetryEntry(r.outcome.record))
    ensures r.outcome.Decoded? ==> r.outcome.record.gsRxCount == s.state.rxCount
    ensures r.outcome.Decoded? ==> r.outcome.record.gsLossTotal == s.state.lossCount
    ensures r.outcome.Decoded? ==> r.outcome.record.packetCount == PacketNumber(Fields(raw))
    ensures r.outcome.Decoded? ==> r.outcome.record.gsRawLine == raw && r.outcome.record.gsTimestamp == stamp
  {
    var parts := Fields(raw);
    match BuildRecord(parts, stamp, s.state.rxCount, s.state.lossCount, raw)
    case Failure(i) => Step(s, FieldError(i))
    case Success(t) =>
      BuildRecordPacket(parts, stamp, s.state.rxCount, s.state.lossCount, raw);
      Step(s.(ring := RingAppend(s.ring, TelemetryEntry(t))), Decoded(t))
  }

  /**
   * `POST /api/ingest`: a line that strips to nothing is refused with 400;
   * any other line is stripped and handled like a serial line.
   */
  function Ingest(s: Session, line: string, stamp: string): (r: Result<Step, HttpError>)
    ensures r.Failure? <==> Strip(line) == []
    ensures r.Failure? ==> r.error == HttpError(400, "empty")
    ensures r.Success? ==> r.value == HandleLine(s, Strip(line), stamp)
  {
    var stripped := Strip(line);
    if stripped == [] then Failure(HttpError(400, "empty")) else Success(HandleLine(s, stripped, stamp))
  }

  /** Whitespace around an ingested line changes nothing: not the refusal, the CSV row, nor the counters. */
  lemma IngestIgnoresPadding(s: Session, a: string, line: string, b: string, stamp: string)
    requires AllSpace(a) && AllSpace(b)
    ensures Ingest(s, a + line + b, stamp) == Ingest(s, line, stamp)
  {
    StripPadded(a, line, b);
  }

  /** The lines of a run that pass the field-count check, in order. */
  function AcceptedLines(lines: seq<string>): seq<string>
  {
    if |lines| == 0 then []
    else (if Accepted(lines[0]) then [lines[0]] else []) + AcceptedLines(lines[1..])
  }

  /** Handles a run of lines in order, one timestamp per line. */
  function Run(s: Session, lines: seq<string>, stamps: seq<string>): Session
    requires |stamps| == |lines|
    decreases |lines|
  {
    if |lines| == 0 then s
    else Run(HandleLine(s, lines[0], stamps[0]).session, lines[1..], stamps[1..])
  }

  /** The effect of one line on what a run accumulates. */
  lemma LineEffect(s: Session, raw: string, stamp: string)
    ensures var s1 := HandleLine(s, raw, stamp).session;
      && s1.state.csvReady == s.state.csvReady
      && s1.state.lossCount >= s.state.lossCount
      && s1.state.rxCount == s.state.rxCount + (if Accepted(raw) then 1 else 0)
      && s1.csv == if Accepted(raw) && s.state.csvReady then Some(Written(s.csv) + [raw + CRLF]) else s.csv
  {
  }

  lemma AppendRow(written: seq<string>, row: string, rest: seq<string>)
    ensures written + Terminate([row] + rest, CRLF) == (written + [row + CRLF]) + Terminate(rest, CRLF)
  {
    TerminateAppend([row], rest, CRLF);
    assert Terminate([row], CRLF) == [row + CRLF];
  }

  /**
   * Over any run of lines: one receive per accepted line, loss never
   * decreases, and CSV readiness is untouched.
   */
  lemma {:induction false} RunCounters(s: Session, lines: seq<string>, stamps: seq<string>)
    requires |stamps| == |lines|
    ensures Run(s, lines, stamps).state.rxCount == s.state.rxCount + |AcceptedLines(lines)|
    ensures Run(s, lines, stamps).state.lossCount >= s.state.lossCount
    ensures Run(s, lines, stamps).state.csvReady == s.state.csvReady
    decreases |lines|
  {
    if |lines| > 0 {
      var s1 := HandleLine(s, lines[0], stamps[0]).session;
      LineEffect(s, lines[0], stamps[0]);
      RunCounters(s1, lines[1..], stamps[1..]);
    }
  }

  /**
   * With the CSV file ready, a run appends exactly its accepted lines, each
   * terminated by CRLF, after everything already written; earlier text is
   * never touched. Without it, the file is left alone.
   */
  lemma {:induction false} RunCsv(s: Session, lines: seq<string>, stamps: seq<string>)
    requires |stamps| == |lines|
    ensures s.state.csvReady ==> Written(Run(s, lines, stamps).csv) == Written(s.csv) + Terminate(AcceptedLines(lines), CRLF)
    ensures s.state.csvReady && |AcceptedLines(lines)| > 0 ==> Run(s, lines, stamps).csv.Some?
    ensures s.csv.Some? ==> Run(s, lines, stamps).csv.Some?
    ensures !s.state.csvReady ==> Run(s, lines, stamps).csv == s.csv
    decreases |lines|
  {
    if |lines| == 0 {
      assert Terminate(AcceptedLines(lines), CRLF) == [];
    } else {
      var s1 := HandleLine(s, lines[0], stamps[0]).session;
      LineEffect(s, lines[0], stamps[0]);
      RunCsv(s1, lines[1..], stamps[1..]);
      var rest := AcceptedLines(lines[1..]);
      if Accepted(lines[0]) {
        assert AcceptedLines(lines) == [lines[0]] + rest;
        AppendRow(Written(s.csv), lines[0], rest);
      } else {
        assert AcceptedLines(lines) == rest;
      }
    }
  }

  /** A line with fewer than 22 fields changes no counter and writes nothing to the CSV file. */
  lemma ShortLineChangesNothing(s: Session, raw: string, stamp: string)
    requires multiset(raw)[','] < MIN_FIELDS - 1
    ensures HandleLine(s, raw, stamp).session.state == s.state
    ensures HandleLine(s, raw, stamp).session.csv == s.csv
  {
  }

  /** The record a decoded line yields is the one built from its fields with the updated counters. */
  lemma DecodedIsBuilt(s: Session, raw: string, stamp: string)
    requires HandleLine(s, raw, stamp).outcome.Decoded?
    ensures var st := HandleLine(s, raw, stamp).session.state;
      BuildRecord(Fields(raw), stamp, st.rxCount, st.lossCount, raw) == Success(HandleLine(s, raw, stamp).outcome.record)
  {
  }
}

=== FILE: records.dfy ===
/**
 * The telemetry record and its construction from the stripped comma fields
 * of one line, through the default-on-empty accessors `s_i`, `s_f`, `s_s`.
 */
module Records {
  import opened Wrappers
  import opened Text
  import opened Station

  /**
   * A float column is carried as its validated literal text (the value
   * Python's `float()` would read from it); the default is "0.0".
   */
  type FloatText = string

  const FLOAT_DEFAULT: FloatText := "0.0"

  /** Lines with fewer comma fields than this are rejected. */
  const MIN_FIELDS: nat := 22

  /** Columns 0..22 feed the record; column 22 (heading) is optional. */
  const NUM_COLUMNS: nat := 23

  datatype Telemetry = Telemetry(
    teamId: int,
    missionTime: string,
    packetCount: int,
    mode: string,
    state: string,
    altitude: FloatText,
    temperature: FloatText,
    pressure: FloatText,
    voltage: FloatText,
    current: FloatText,
    gyroR: FloatText,
    gyroP: FloatText,
    gyroY: FloatText,
    accelR: FloatText,
    accelP: FloatText,
    accelY: FloatText,
    gpsTime: string,
    gpsAltitude: FloatText,
    gpsLat: FloatText,
    gpsLon: FloatText,
    gpsSats: int,
    cmdEcho: string,
    heading: FloatText,
    gsTimestamp: string,
    gsRxCount: nat,
    gsLossTotal: nat,
    gsRawLine: string)

  /** `[p.strip() for p in raw.split(",")]`. */
  function Fields(raw: string): (parts: seq<string>)
    ensures |parts| == multiset(raw)[','] + 1
    ensures forall k :: 0 <= k < |parts| ==> Trimmed(parts[k]) && ',' !in parts[k]
    ensures forall k :: 0 <= k < |parts| ==> parts[k] == Strip(Split(raw, ',')[k])
  {
    var ps := Split(raw, ',');
    forall k | 0 <= k < |ps|
      ensures ',' !in Strip(ps[k])
    {
      StripKeepsAbsent(ps[k], ',');
    }
    StripAll(ps)
  }

  /** The accessors' test: the index is in range and the field is not empty. */
  predicate Present(parts: seq<string>, i: nat)
  {
    i < |parts| && parts[i] != ""
  }

  /** `s_s(i, d)`: the raw field, or `d` when it is missing or empty. */
  function FieldText(parts: seq<string>, i: nat, d: string): (r: string)
    ensures Present(parts, i) ==> r == parts[i]
    ensures !Present(parts, i) ==> r == d
  {
    if Present(parts, i) then parts[i] else d
  }

  /** `s_i(i, d)`: the parsed integer, `d` when missing or empty, or a failure naming column `i`. */
  function FieldInt(parts: seq<string>, i: nat, d: int): (r: Result<int, nat>)
    ensures !Present(parts, i) ==> r == Success(d)
    ensures Present(parts, i) ==> (r.Success? <==> ParseInt(parts[i]).Some?)
    ensures Present(parts, i) && r.Success? ==> Some(r.value) == ParseInt(parts[i])
    ensures r.Failure? ==> r.error == i
  {
    if Present(parts, i) then
      match ParseInt(parts[i])
      case Some(v) => Success(v)
      case None => Failure(i)
    else Success(d)
  }

  /** `s_f(i, d)`: the float literal, "0.0" when missing or empty, or a failure naming column `i`. */
  function FieldFloat(parts: seq<string>, i: nat): (r: Result<FloatText, nat>)
    ensures !Present(parts, i) ==> r == Success(FLOAT_DEFAULT)
    ensures Present(parts, i) ==> (r.Success? <==> IsFloatLiteral(parts[i]))
    ensures Present(parts, i) && r.Success? ==> r.value == parts[i]
    ensures r.Failure? ==> r.error == i
  {
    if !Present(parts, i) then Success(FLOAT_DEFAULT)
    else if IsFloatLiteral(parts[i]) then Success(parts[i])
    else Failure(i)
  }

  datatype ColumnKind = IntColumn(default: int) | FloatColumn | TextColumn

  /** The accessor each column of the record goes through. */
  function Kind(i: nat): ColumnKind
    requires i < NUM_COLUMNS
  {
    if i == 0 then IntColumn(TEAM_ID)
    else if i == 2 || i == 20 then IntColumn(0)
    else if i in {1, 3, 4, 16, 21} then TextColumn
    else FloatColumn
  }

  /** The value a record field holds, tagged by kind. */
  datatype Value = IntValue(i: int) | FloatValue(f: FloatText) | TextValue(t: string)

  /** What the accessor of column `i` yields: a value, or the column index when it raises. */
  function Column(parts: seq<string>, i: nat): Result<Value, nat>
    requires i < NUM_COLUMNS
  {
    match Kind(i)
    case IntColumn(d) =>
      (match FieldInt(parts, i, d) case Success(v) => Success(IntValue(v)) case Failure(e) => Failure(e))
    case FloatColumn =>
      (match FieldFloat(parts, i) case Success(v) => Success(FloatValue(v)) case Failure(e) => Failure(e))
    case TextColumn => Success(TextValue(FieldText(parts, i, "")))
  }

  predicate ColumnOk(parts: seq<string>, i: nat)
    requires i < NUM_COLUMNS
  {
    Column(parts, i).Success?
  }

  /** The first column at or after `from` whose accessor raises, in the record's argument order. */
  function FirstBadColumn(parts: seq<string>, from: nat): (r: Option<nat>)
    requires from <= NUM_COLUMNS
    ensures r.Some? ==> from <= r.value < NUM_COLUMNS && !ColumnOk(parts, r.value)
    ensures r.Some? ==> forall j :: from <= j < r.value ==> ColumnOk(parts, j)
    ensures r.None? ==> forall j :: from <= j < NUM_COLUMNS ==> ColumnOk(parts, j)
    decreases NUM_COLUMNS - from
  {
    if from == NUM_COLUMNS then None
    else if !ColumnOk(parts, from) then Some(from)
    else FirstBadColumn(parts, from + 1)
  }

  /** The integer a column yields, 0 where it yields none (never read then). */
  function IntAt(parts: seq<string>, i: nat): int
    requires i < NUM_COLUMNS
  {
    match Column(parts, i)
    case Success(IntValue(v)) => v
    case _ => 0
  }

  function FloatAt(parts: seq<string>, i: nat): FloatText
    requires i < NUM_COLUMNS
  {
    match Column(parts, i)
    case Success(FloatValue(v)) => v
    case _ => FLOAT_DEFAULT
  }

  function TextAt(parts: seq<string>, i: nat): string
    requires i < NUM_COLUMNS
  {
    match Column(parts, i)
    case Success(TextValue(v)) => v
    case _ => ""
  }

  /** The record's column fields, in column order (the inverse view of construction). */
  function Columns(t: Telemetry): (vs: seq<Value>)
    ensures |vs| == NUM_COLUMNS
  {
    [IntValue(t.teamId), TextValue(t.missionTime), IntValue(t.packetCount), TextValue(t.mode), TextValue(t.state),
     FloatValue(t.altitude), FloatValue(t.temperature), FloatValue(t.pressure), FloatValue(t.voltage), FloatValue(t.current),
     FloatValue(t.gyroR), FloatValue(t.gyroP), FloatValue(t.gyroY),
     FloatValue(t.accelR), FloatValue(t.accelP), FloatValue(t.accelY),
     TextValue(t.gpsTime), FloatValue(t.gpsAltitude), FloatValue(t.gpsLat), FloatValue(t.gpsLon),
     IntValue(t.gpsSats), TextValue(t.cmdEcho), FloatValue(t.heading)]
  }

  /** The record whose column fields are the accessors' values, with the given ground fields. */
  function Assemble(parts: seq<string>, stamp: string, rx: nat, loss: nat, raw: string): Telemetry
  {
    Telemetry(
      IntAt(parts, 0), TextAt(parts, 1), IntAt(parts, 2), TextAt(parts, 3), TextAt(parts, 4),
      FloatAt(parts, 5), FloatAt(parts, 6), FloatAt(parts, 7), FloatAt(parts, 8), FloatAt(parts, 9),
      FloatAt(parts, 10), FloatAt(parts, 11), FloatAt(parts, 12),
      FloatAt(parts, 13), FloatAt(parts, 14), FloatAt(parts, 15),
      TextAt(parts, 16), FloatAt(parts, 17), FloatAt(parts, 18), FloatAt(parts, 19),
      IntAt(parts, 20), TextAt(parts, 21), FloatAt(parts, 22),
      stamp, rx, loss, raw)
  }

  /** A column that does not raise yields a value of its own kind. */
  lemma ColumnShape(parts: seq<string>, j: nat)
    requires j < NUM_COLUMNS && ColumnOk(parts, j)
    ensures Kind(j).IntColumn? ==> Column(parts, j) == Success(IntValue(IntAt(parts, j)))
    ensures Kind(j).FloatColumn? ==> Column(parts, j) == Success(FloatValue(FloatAt(parts, j)))
    ensures Kind(j).TextColumn? ==> Column(parts, j) == Success(TextValue(TextAt(parts, j)))
  {
  }

  /**
   * `Telemetry(...)` built from the fields: the first column whose accessor
   * raises aborts construction; otherwise every column of the record is
   * what its accessor yields, and the ground fields are the given ones.
   */
  function BuildRecord(parts: seq<string>, stamp: string, rx: nat, loss: nat, raw: string): (r: Result<Telemetry, nat>)
    ensures r.Success? <==> forall j :: 0 <= j < NUM_COLUMNS ==> ColumnOk(parts, j)
    ensures r.Failure? ==> r.error < NUM_COLUMNS && !ColumnOk(parts, r.error)
    ensures r.Failure? ==> forall j :: 0 <= j < r.error ==> ColumnOk(parts, j)
    ensures r.Success? ==> r.value.gsTimestamp == stamp && r.value.gsRxCount == rx
    ensures r.Success? ==> r.value.gsLossTotal == loss && r.value.gsRawLine == raw
  {
    match FirstBadColumn(parts, 0)
    case Some(i) => Failure(i)
    case None => Success(Assemble(parts, stamp, rx, loss, raw))
  }

  /** Every column of a built record is exactly what that column's accessor yields. */
  lemma BuildRecordColumns(parts: seq<string>, stamp: string, rx: nat, loss: nat, raw: string)
    requires BuildRecord(parts, stamp, rx, loss, raw).Success?
    ensures forall j :: 0 <= j < NUM_COLUMNS ==>
      Column(parts, j) == Success(Columns(BuildRecord(parts, stamp, rx, loss, raw).value)[j])
  {
    var t := BuildRecord(parts, stamp, rx, loss, raw).value;
    assert t == Assemble(parts, stamp, rx, loss, raw);
    AssembleColumns(parts, stamp, rx, loss, raw);
  }

  /** The default a missing or empty column takes. */
  function DefaultValue(k: ColumnKind): Value
  {
    match k
    case IntColumn(d) => IntValue(d)
    case FloatColumn => FloatValue(FLOAT_DEFAULT)
    case TextColumn => TextValue("")
  }

  /**
   * Re-reading a built record reproduces its line: every present text or
   * float column is the field verbatim, every present integer column parses
   * to the record's value, and every empty or missing column holds its
   * default.
   */
  lemma RecordRoundTrip(parts: seq<string>, stamp: string, rx: nat, loss: nat, raw: string, j: nat)
    requires BuildRecord(parts, stamp, rx, loss, raw).Success? && j < NUM_COLUMNS
    ensures var v := Columns(BuildRecord(parts, stamp, rx, loss, raw).value)[j];
      && (Present(parts, j) && Kind(j).TextColumn? ==> v == TextValue(parts[j]))
      && (Present(parts, j) && Kind(j).FloatColumn? ==> v == FloatValue(parts[j]))
      && (Present(parts, j) && Kind(j).IntColumn? ==> v.IntValue? && ParseInt(parts[j]) == Some(v.i))
      && (!Present(parts, j) ==> v == DefaultValue(Kind(j)))
  {
    BuildRecordColumns(parts, stamp, rx, loss, raw);
    var v := Columns(BuildRecord(parts, stamp, rx, loss, raw).value)[j];
    assert Column(parts, j) == Success(v);
  }

  /** The record's packet count is `int(parts[2])`, or 0 when that field is empty. */
  lemma BuildRecordPacket(parts: seq<string>, stamp: string, rx: nat, loss: nat, raw: string)
    requires |parts| > 2 && BuildRecord(parts, stamp, rx, loss, raw).Success?
    ensures BuildRecord(parts, stamp, rx, loss, raw).value.packetCount == ParseInt(parts[2]).GetOr(0)
  {
    BuildRecordColumns(parts, stamp, rx, loss, raw);
    assert Column(parts, 2) == Success(IntValue(BuildRecord(parts, stamp, rx, loss, raw).value.packetCount));
  }

  lemma AssembleColumns(parts: seq<string>, stamp: string, rx: nat, loss: nat, raw: string)
    requires forall j :: 0 <= j < NUM_COLUMNS ==> ColumnOk(parts, j)
    ensures forall j :: 0 <= j < NUM_COLUMNS ==> Column(parts, j) == Success(Columns(Assemble(parts, stamp, rx, loss, raw))[j])
  {
    var cs := Columns(Assemble(parts, stamp, rx, loss, raw));
    forall j | 0 <= j < NUM_COLUMNS
      ensures Column(parts, j) == Success(cs[j])
    {
      ColumnShape(parts, j);
      // `j` is symbolic here: splitting it into the 23 literal indices lets the
      // verifier unfold `Column(parts, j)` and `cs[j]` to one accessor each.
      if j == 0 {
      } else if j == 1 {
      } else if j == 2 {
      } else if j == 3 {
      } else if j == 4 {
      } else if j == 5 {
      } else if j == 6 {
      } else if j == 7 {
      } else if j == 8 {
      } else if j == 9 {
      } else if j == 10 {
      } else if j == 11 {
      } else if j == 12 {
      } else if j == 13 {
      } else if j == 14 {
      } else if j == 15 {
      } else if j == 16 {
      } else if j == 17 {
      } else if j == 18 {
      } else if j == 19 {
      } else if j == 20 {
      } else if j == 21 {
      } else if j == 22 {
      }
    }
  }

}

=== FILE: seqs.dfy ===
/** Generic sequence helpers: flattening, joining with a separator, first index. */
module Seqs {

  /** Flattens a sequence of sequences, front to back. */
  function Concat<T>(ss: seq<seq<T>>): seq<T>
  {
    if |ss| == 0 then [] else ss[0] + Concat(ss[1..])
  }

  /** Appends the terminator `t` to every element. */
  function Terminate<T>(ss: seq<seq<T>>, t: seq<T>): seq<seq<T>>
  {
    seq(|ss|, k requires 0 <= k < |ss| => ss[k] + t)
  }

  /** `sep.join(parts)` in the Python sense: the empty list joins to the empty sequence. */
  function Join<T>(parts: seq<seq<T>>, sep: seq<T>): seq<T>
  {
    if |parts| == 0 then []
    else if |parts| == 1 then parts[0]
    else parts[0] + sep + Join(parts[1..], sep)
  }

  /** Position of the first occurrence of `x` in `s`. */
  function IndexOf<T(==)>(s: seq<T>, x: T): (i: nat)
    requires x in s
    ensures i < |s| && s[i] == x && x !in s[..i]
  {
    if s[0] == x then 0 else 1 + IndexOf(s[1..], x)
  }

  /** The first position at or after `i` holding `true`, or `|flags|` if there is none. */
  function FirstTrue(flags: seq<bool>, i: nat): (k: nat)
    requires i <= |flags|
    ensures i <= k <= |flags|
    ensures forall j :: i <= j < k ==> !flags[j]
    ensures k < |flags| ==> flags[k]
    decreases |flags| - i
  {
    if i == |flags| || flags[i] then i else FirstTrue(flags, i + 1)
  }

  lemma FirstTrueUnique(flags: seq<bool>, i: nat, k: nat)
    requires i <= k <= |flags|
    requires forall j :: i <= j < k ==> !flags[j]
    requires k < |flags| ==> flags[k]
    ensures FirstTrue(flags, i) == k
  {
  }

  lemma IndexOfSplit<T>(a: seq<T>, x: T, b: seq<T>)
    requires x !in a
    ensures x in a + [x] + b
    ensures IndexOf(a + [x] + b, x) == |a|
  {
    var s := a + [x] + b;
    assert s[|a|] == x;
  }

  lemma {:induction false} ConcatAppend<T>(a: seq<seq<T>>, b: seq<seq<T>>)
    ensures Concat(a + b) == Concat(a) + Concat(b)
    decreases |a|
  {
    if |a| == 0 {
      assert a + b == b;
    } else {
      assert (a + b)[1..] == a[1..] + b;
      ConcatAppend(a[1..], b);
    }
  }

  lemma TerminateAppend<T>(a: seq<seq<T>>, b: seq<seq<T>>, t: seq<T>)
    ensures Terminate(a + b, t) == Terminate(a, t) + Terminate(b, t)
  {
  }

  lemma ConcatTerminateCons<T>(x: seq<T>, ss: seq<seq<T>>, t: seq<T>)
    ensures Concat(Terminate([x] + ss, t)) == x + t + Concat(Terminate(ss, t))
  {
    var tt := Terminate([x] + ss, t);
    assert tt[1..] == Terminate(ss, t);
  }

  /** Joining with `sep` and adding one final `sep` is the same as terminating every part with `sep`. */
  lemma {:induction false} JoinTerminated<T>(parts: seq<seq<T>>, sep: seq<T>)
    requires |parts| > 0
    ensures Join(parts, sep) + sep == Concat(Terminate(parts, sep))
    decreases |parts|
  {
    var tp := Terminate(parts, sep);
    assert tp[0] == parts[0] + sep;
    if |parts| == 1 {
      assert Concat(tp[1..]) == [];
    } else {
      assert tp[1..] == Terminate(parts[1..], sep);
      JoinTerminated(parts[1..], sep);
    }
  }
}

=== FILE: sequencing.dfy ===
/**
 * Packet accounting of `handle_telemetry_line`: every accepted line counts
 * as received, and loss grows only on a forward gap in packet numbers.
 */
module Sequencing {
  import opened Wrappers
  import opened Station

  /** Packets missing between the previous packet number and this one; never negative. */
  function Gap(prev: Option<int>, pkt: int): nat
  {
    match prev
    case None => 0
    case Some(p) => if pkt - p - 1 > 0 then pkt - p - 1 else 0
  }

  /**
   * The counter update for one accepted line: `rx_count` plus one, loss
   * plus the forward gap, `last_pkt` overwritten; nothing else changes.
   */
  function CountPacket(st: GSState, pkt: int): (st': GSState)
    ensures st'.rxCount == st.rxCount + 1
    ensures st'.lastPkt == Some(pkt)
    ensures st'.lossCount >= st.lossCount
    ensures st'.lossCount > st.lossCount <==> (st.lastPkt.Some? && pkt > st.lastPkt.value + 1)
    ensures st'.lossCount == st.lossCount + Gap(st.lastPkt, pkt)
    ensures st' == st.(rxCount := st'.rxCount, lossCount := st'.lossCount, lastPkt := st'.lastPkt)
  {
    var loss := if st.lastPkt.Some? && pkt > st.lastPkt.value + 1 then st.lossCount + (pkt - st.lastPkt.value - 1) else st.lossCount;
    st.(rxCount := st.rxCount + 1, lossCount := loss, lastPkt := Some(pkt))
  }

  /** The counters after a run of packets, in arrival order. */
  function Track(st: GSState, pkts: seq<int>): GSState
    decreases |pkts|
  {
    if |pkts| == 0 then st else Track(CountPacket(st, pkts[0]), pkts[1..])
  }

  /** Over any run: one receive per packet, loss never decreases, and the last packet is remembered. */
  lemma {:induction false} TrackCounts(st: GSState, pkts: seq<int>)
    ensures Track(st, pkts).rxCount == st.rxCount + |pkts|
    ensures Track(st, pkts).lossCount >= st.lossCount
    ensures |pkts| > 0 ==> Track(st, pkts).lastPkt == Some(pkts[|pkts| - 1])
    ensures |pkts| == 0 ==> Track(st, pkts) == st
    decreases |pkts|
  {
    if |pkts| > 0 {
      TrackCounts(CountPacket(st, pkts[0]), pkts[1..]);
    }
  }

  predicate StrictlyIncreasing(pkts: seq<int>)
  {
    forall i, j :: 0 <= i < j < |pkts| ==> pkts[i] < pkts[j]
  }

  /**
   * For strictly increasing packet numbers after a known previous packet
   * `p`, the loss added is exactly the count of numbers skipped between `p`
   * and the last packet.
   */
  lemma {:induction false} IncreasingLoss(st: GSState, pkts: seq<int>)
    requires st.lastPkt.Some? && |pkts| > 0
    requires StrictlyIncreasing(pkts) && pkts[0] > st.lastPkt.value
    ensures Track(st, pkts).lossCount == st.lossCount + (pkts[|pkts| - 1] - st.lastPkt.value - |pkts|)
    decreases |pkts|
  {
    var st1 := CountPacket(st, pkts[0]);
    assert st1.lossCount == st.lossCount + (pkts[0] - st.lastPkt.value - 1);
    if |pkts| > 1 {
      IncreasingLoss(st1, pkts[1..]);
    }
  }

  /** From a fresh session, a strictly increasing run loses exactly the numbers missing between its first and last packet. */
  lemma FreshIncreasingLoss(st: GSState, pkts: seq<int>)
    requires st.lastPkt.None? && |pkts| > 0 && StrictlyIncreasing(pkts)
    ensures Track(st, pkts).lossCount == st.lossCount + (pkts[|pkts| - 1] - pkts[0] + 1 - |pkts|)
  {
    var st1 := CountPacket(st, pkts[0]);
    if |pkts| > 1 {
      IncreasingLoss(st1, pkts[1..]);
    }
  }

  /** Packets 1, 2, 3, 5, 5, 7: six received, two lost (4 and 6); the duplicate 5 adds nothing. */
  lemma ExampleRun()
    ensures Track(Initial(), [1, 2, 3, 5, 5, 7]).rxCount == 6
    ensures Track(Initial(), [1, 2, 3, 5, 5, 7]).lossCount == 2
  {
    var s1 := CountPacket(Initial(), 1);
    var s2 := CountPacket(s1, 2);
    var s3 := CountPacket(s2, 3);
    var s4 := CountPacket(s3, 5);
    var s5 := CountPacket(s4, 5);
    var s6 := CountPacket(s5, 7);
    assert [1, 2, 3, 5, 5, 7][1..] == [2, 3, 5, 5, 7];
    assert [2, 3, 5, 5, 7][1..] == [3, 5, 5, 7];
    assert [3, 5, 5, 7][1..] == [5, 5, 7];
    assert [5, 5, 7][1..] == [5, 7];
    assert [5, 7][1..] == [7];
    assert [7][1..] == [];
    assert Track(Initial(), [1, 2, 3, 5, 5, 7]) == s6;
  }
}

=== FILE: station.dfy ===
/**
 * Configuration constants and the process-wide ground-station state
 * (`GSState`), with the serial-configuration update.
 */
module Station {
  import opened Wrappers
  import opened Text

  /** The team number compiled into the station; uplink frames carry it zero-padded. */
  const TEAM_ID: nat := 1043

  /** The team number as it appears in frames and file names: zero-padded to four digits. */
  const TEAM_TAG: string := "1043"

  /** The team tag is the team number formatted with `{TEAM_ID:04}`. */
  lemma TeamTagIsPadded()
    ensures TEAM_TAG == Pad4(TEAM_ID)
  {
    TeamDecimal();
    assert ZFill("1043", 4) == Zeros(0) + "1043";
  }

  lemma TeamDecimal()
    ensures NatToDecimal(1043) == "1043"
  {
    assert NatToDecimal(1) == "1";
    assert NatToDecimal(10) == "10";
    assert NatToDecimal(104) == "104";
  }

  const DEFAULT_PORT: string := "COM5"
  const DEFAULT_BAUD: int := 115200

  /** The only baud rates the configuration endpoint accepts. */
  const BAUD_PRESETS: seq<int> := [9600, 19200, 38400, 57600, 115200, 230400, 250000, 460800, 921600]

  /** The 23-column header of every flight CSV file. */
  const CSV_HEADER: string :=
    "TEAM_ID,MISSION_TIME,PACKET_COUNT,MODE,STATE,ALTITUDE,TEMPERATURE,PRESSURE,VOLTAGE,CURRENT,"
    + "GYRO_R,GYRO_P,GYRO_Y,ACCEL_R,ACCEL_P,ACCEL_Y,GPS_TIME,GPS_ALTITUDE,GPS_LATITUDE,GPS_LONGITUDE,GPS_SATS,CMD_ECHO,"
    + "HEADING"

  /** The line terminator used in every CSV file. */
  const CRLF: string := "\r\n"

  datatype SerialCfg = SerialCfg(port: string, baud: int)

  /**
   * The mutable singleton of the station: serial configuration, receive and
   * loss counters, last packet number seen, whether the CSV file is ready,
   * and the last uplink frame.
   */
  datatype GSState = GSState(
    cfg: SerialCfg,
    rxCount: nat,
    lossCount: nat,
    lastPkt: Option<int>,
    csvReady: bool,
    lastCmd: string)

  /** The state at process start; `lastCmd` is an em dash. */
  function Initial(): GSState
  {
    GSState(SerialCfg(DEFAULT_PORT, DEFAULT_BAUD), 0, 0, None, false, "\U{2014}")
  }

  datatype HttpError = HttpError(status: nat, detail: string)

  /**
   * `POST /api/serial/config`: a baud rate outside the presets is refused
   * with 400; otherwise the configuration is replaced and nothing else.
   */
  function SetSerialConfig(st: GSState, cfg: SerialCfg): (r: Result<GSState, HttpError>)
    ensures r.Failure? <==> cfg.baud !in BAUD_PRESETS
    ensures r.Failure? ==> r.error == HttpError(400, "baud not allowed")
    ensures r.Success? ==> r.value.cfg == cfg && r.value == st.(cfg := r.value.cfg)
  {
    if cfg.baud !in BAUD_PRESETS then Failure(HttpError(400, "baud not allowed"))
    else Success(st.(cfg := cfg))
  }

  /** The station's serial configuration uses one of the preset baud rates. */
  predicate BaudAllowed(st: GSState)
  {
    st.cfg.baud in BAUD_PRESETS
  }

  /** A series of configuration requests, each refused or applied in turn. */
  function ApplyConfigs(st: GSState, cfgs: seq<SerialCfg>): GSState
    decreases |cfgs|
  {
    if |cfgs| == 0 then st
    else
      match SetSerialConfig(st, cfgs[0])
      case Failure(_) => ApplyConfigs(st, cfgs[1..])
      case Success(st') => ApplyConfigs(st', cfgs[1..])
  }

  /** The start-up configuration uses a preset baud rate. */
  lemma InitialBaudAllowed()
    ensures BaudAllowed(Initial())
  {
  }

  /**
   * The preset check is an invariant of the process: from a preset baud
   * rate, no series of requests, refused or accepted, leads outside the
   * presets, and only the serial configuration ever changes.
   */
  lemma {:induction false} BaudStaysAllowed(cfgs: seq<SerialCfg>, st: GSState)
    requires BaudAllowed(st)
    ensures BaudAllowed(ApplyConfigs(st, cfgs))
    ensures ApplyConfigs(st, cfgs) == st.(cfg := ApplyConfigs(st, cfgs).cfg)
    decreases |cfgs|
  {
    if |cfgs| > 0 {
      match SetSerialConfig(st, cfgs[0])
      case Failure(_) => BaudStaysAllowed(cfgs[1..], st);
      case Success(st') => BaudStaysAllowed(cfgs[1..], st');
    }
  }
}

=== FILE: text.dfy ===
/**
 * Python string primitives the ground station relies on: `str.strip()`,
 * `str.split(sep)`, `str.isdigit()`, `int()`, `float()` (as a literal check),
 * `str(n)`, `str.zfill(w)` and the `{n:04}` format.
 */
module Text {
  import opened Wrappers
  import opened Seqs

  // ---------------------------------------------------------------- whitespace

  /** Python's `str.isspace()` for one character. */
  predicate IsSpace(c: char)
  {
    || c == ' '
    || ('\t' <= c <= '\r')
    || ('\U{1c}' <= c <= '\U{1f}')
    || c == '\U{85}' || c == '\U{a0}' || c == '\U{1680}'
    || ('\U{2000}' <= c <= '\U{200a}')
    || c == '\U{2028}' || c == '\U{2029}' || c == '\U{202f}' || c == '\U{205f}' || c == '\U{3000}'
  }

  /** Every character of `s` at a position in [lo, hi) is whitespace. */
  predicate SpaceBetween(s: string, lo: int, hi: int)
    requires 0 <= lo && hi <= |s|
  {
    forall k :: lo <= k < hi ==> IsSpace(s[k])
  }

  predicate AllSpace(s: string)
  {
    SpaceBetween(s, 0, |s|)
  }

  /** True when `s` has no whitespace at either end. */
  predicate Trimmed(s: string)
  {
    s == [] || (!IsSpace(s[0]) && !IsSpace(s[|s| - 1]))
  }

  /** The first position at or after `i` that does not hold whitespace (or `|s|`). */
  function SkipSpace(s: string, i: nat): (j: nat)
    requires i <= |s|
    ensures i <= j <= |s|
    ensures SpaceBetween(s, i, j)
    ensures j == |s| || !IsSpace(s[j])
    decreases |s| - i
  {
    if i < |s| && IsSpace(s[i]) then SkipSpace(s, i + 1) else i
  }

  /** The position just past the last non-whitespace character in [lo, hi) (or `lo`). */
  function SkipSpaceBack(s: string, lo: nat, hi: nat): (j: nat)
    requires lo <= hi <= |s|
    ensures lo <= j <= hi
    ensures SpaceBetween(s, j, hi)
    ensures j == lo || !IsSpace(s[j - 1])
    decreases hi
  {
    if hi > lo && IsSpace(s[hi - 1]) then SkipSpaceBack(s, lo, hi - 1) else hi
  }

  lemma SkipSpaceUnique(s: string, i: nat, k: nat)
    requires i <= k <= |s| && SpaceBetween(s, i, k)
    requires k == |s| || !IsSpace(s[k])
    ensures SkipSpace(s, i) == k
  {
  }

  lemma SkipSpaceBackUnique(s: string, lo: nat, hi: nat, k: nat)
    requires lo <= k <= hi <= |s| && SpaceBetween(s, k, hi)
    requires k == lo || !IsSpace(s[k - 1])
    ensures SkipSpaceBack(s, lo, hi) == k
  {
  }

  function StripStart(s: string): (i: nat)
    ensures i <= |s|
  {
    SkipSpace(s, 0)
  }

  function StripEnd(s: string): (j: nat)
    ensures StripStart(s) <= j <= |s|
  {
    SkipSpaceBack(s, StripStart(s), |s|)
  }

  /** Python's `s.strip()`: whitespace removed from both ends. */
  function Strip(s: string): (r: string)
    ensures Trimmed(r) && |r| <= |s|
  {
    s[StripStart(s)..StripEnd(s)]
  }

  /** `s` is leading whitespace, then its stripped middle, then trailing whitespace. */
  lemma StripDecomposes(s: string)
    ensures s == s[..StripStart(s)] + Strip(s) + s[StripEnd(s)..]
    ensures SpaceBetween(s, 0, StripStart(s)) && SpaceBetween(s, StripEnd(s), |s|)
  {
    assert s == s[..StripStart(s)] + s[StripStart(s)..StripEnd(s)] + s[StripEnd(s)..];
  }

  /** Stripping is determined by the decomposition: whitespace, a trimmed middle, whitespace. */
  lemma StripUnique(a: string, m: string, b: string)
    requires AllSpace(a) && AllSpace(b) && Trimmed(m)
    ensures Strip(a + m + b) == m
  {
    var s := a + m + b;
    assert SpaceBetween(s, 0, |a|) by {
      forall k | 0 <= k < |a| ensures IsSpace(s[k]) { assert s[k] == a[k]; }
    }
    assert SpaceBetween(s, |a| + |m|, |s|) by {
      forall k | |a| + |m| <= k < |s| ensures IsSpace(s[k]) { assert s[k] == b[k - |a| - |m|]; }
    }
    if m == [] {
      SkipSpaceUnique(s, 0, |s|);
      SkipSpaceBackUnique(s, |s|, |s|, |s|);
    } else {
      assert s[|a|] == m[0] && s[|a| + |m| - 1] == m[|m| - 1];
      SkipSpaceUnique(s, 0, |a|);
      SkipSpaceBackUnique(s, |a|, |s|, |a| + |m|);
      assert s[|a|..|a| + |m|] == m;
    }
  }

  /** A whitespace stretch of `s`, cut out, is all whitespace. */
  lemma SpaceSlice(s: string, lo: int, hi: int)
    requires 0 <= lo <= hi <= |s| && SpaceBetween(s, lo, hi)
    ensures AllSpace(s[lo..hi])
  {
    forall k | 0 <= k < hi - lo ensures IsSpace(s[lo..hi][k]) {
      assert s[lo..hi][k] == s[lo + k];
    }
  }

  lemma SpaceAppend(x: string, y: string)
    requires AllSpace(x) && AllSpace(y)
    ensures AllSpace(x + y)
  {
    forall k | 0 <= k < |x + y| ensures IsSpace((x + y)[k]) {
      if k >= |x| { assert (x + y)[k] == y[k - |x|]; }
    }
  }

  /** Extra whitespace around a string does not change what it strips to. */
  lemma StripPadded(a: string, m: string, b: string)
    requires AllSpace(a) && AllSpace(b)
    ensures Strip(a + m + b) == Strip(m)
  {
    StripDecomposes(m);
    var i, j := StripStart(m), StripEnd(m);
    var lead, mid, trail := m[..i], m[i..j], m[j..];
    assert lead == m[0..i];
    SpaceSlice(m, 0, i);
    SpaceSlice(m, j, |m|);
    SpaceAppend(a, lead);
    SpaceAppend(trail, b);
    assert a + m + b == (a + lead) + mid + (trail + b);
    StripUnique(a + lead, mid, trail + b);
  }

  /** Stripping only removes characters: a character absent from `s` is absent from `s.strip()`. */
  lemma StripKeepsAbsent(s: string, c: char)
    requires c !in s
    ensures c !in Strip(s)
  {
    var r := Strip(s);
    forall k | 0 <= k < |r|
      ensures r[k] != c
    {
      assert r[k] == s[StripStart(s) + k];
    }
  }

  // ---------------------------------------------------------------- splitting

  /** Python's `s.split(sep)` for a one-character separator. */
  function Split(s: string, sep: char): (parts: seq<string>)
    ensures |parts| == multiset(s)[sep] + 1
    ensures forall k :: 0 <= k < |parts| ==> sep !in parts[k]
    ensures Join(parts, [sep]) == s
    decreases |s|
  {
    if sep in s then
      var i := IndexOf(s, sep);
      var rest := Split(s[i + 1..], sep);
      assert s == s[..i] + [sep] + s[i + 1..];
      assert multiset(s)[sep] == multiset(s[..i])[sep] + 1 + multiset(s[i + 1..])[sep];
      assert ([s[..i]] + rest)[1..] == rest;
      [s[..i]] + rest
    else
      [s]
  }

  /** A separator-free part followed by the separator splits off as the first part. */
  lemma SplitCons(a: string, sep: char, tail: string)
    requires sep !in a
    ensures Split(a + [sep] + tail, sep) == [a] + Split(tail, sep)
  {
    var s := a + [sep] + tail;
    IndexOfSplit(a, sep, tail);
    assert s[..|a|] == a;
    assert s[|a| + 1..] == tail;
  }

  /** Splitting a join of separator-free parts gives the parts back. */
  lemma {:induction false} SplitJoin(parts: seq<string>, sep: char)
    requires |parts| > 0
    requires forall k :: 0 <= k < |parts| ==> sep !in parts[k]
    ensures Split(Join(parts, [sep]), sep) == parts
    decreases |parts|
  {
    if |parts| == 1 {
      assert Join(parts, [sep]) == parts[0];
    } else {
      var tail := Join(parts[1..], [sep]);
      assert Join(parts, [sep]) == parts[0] + [sep] + tail;
      SplitCons(parts[0], sep, tail);
      SplitJoin(parts[1..], sep);
      assert parts == [parts[0]] + parts[1..];
    }
  }

  /** Every part stripped: `[p.strip() for p in s.split(sep)]`. */
  function StripAll(ps: seq<string>): (r: seq<string>)
    ensures |r| == |ps|
    ensures forall k :: 0 <= k < |r| ==> r[k] == Strip(ps[k])
  {
    seq(|ps|, k requires 0 <= k < |ps| => Strip(ps[k]))
  }

  predicate StartsWith(s: string, prefix: string)
  {
    |prefix| <= |s| && s[..|prefix|] == prefix
  }

  // ---------------------------------------------------------------- numbers

  predicate IsDigit(c: char)
  {
    '0' <= c <= '9'
  }

  predicate AllDigits(s: string)
  {
    forall i :: 0 <= i < |s| ==> IsDigit(s[i])
  }

  /** Python's `s.isdigit()`, restricted to ASCII digits. */
  predicate IsDigits(s: string)
  {
    |s| > 0 && AllDigits(s)
  }

  function DigitChar(d: nat): char
    requires d < 10
  {
    ('0' as int + d) as char
  }

  /** Value of a string of decimal digits (the empty string has value 0). */
  function DigitsValue(s: string): nat
    requires AllDigits(s)
  {
    if |s| == 0 then 0 else DigitsValue(s[..|s| - 1]) * 10 + (s[|s| - 1] as int - '0' as int)
  }

  /** Python's `str(n)` for a natural number: canonical decimal, parsing back to `n`. */
  function NatToDecimal(n: nat): (s: string)
    ensures IsDigits(s)
    ensures DigitsValue(s) == n
    ensures s[0] == '0' ==> s == "0"
  {
    if n < 10 then [DigitChar(n)]
    else
      var s := NatToDecimal(n / 10) + [DigitChar(n % 10)];
      assert s[..|s| - 1] == NatToDecimal(n / 10);
      s
  }

  /** Python's `str(n)` for any integer. */
  function IntToDecimal(n: int): string
  {
    if n < 0 then "-" + NatToDecimal(-n) else NatToDecimal(n)
  }

  /**
   * Python's `int(s)` on an already-stripped string, simplified to an
   * optional sign followed by ASCII digits; None where `int()` raises.
   */
  function ParseInt(s: string): (r: Option<int>)
    ensures r.Some? <==> IsDigits(s) || (|s| > 0 && (s[0] == '+' || s[0] == '-') && IsDigits(s[1..]))
    ensures IsDigits(s) ==> r == Some(DigitsValue(s))
    ensures r.Some? && |s| > 0 && s[0] == '-' ==> r.value == -(DigitsValue(s[1..]) as int)
    ensures r.Some? && |s| > 0 && s[0] == '+' ==> r.value == DigitsValue(s[1..])
    ensures r.Some? && r.value < 0 ==> s[0] == '-'
  {
    if |s| > 0 && (s[0] == '+' || s[0] == '-') then
      if IsDigits(s[1..]) then
        Some(if s[0] == '-' then -(DigitsValue(s[1..]) as int) else DigitsValue(s[1..]))
      else None
    else if IsDigits(s) then Some(DigitsValue(s))
    else None
  }

  lemma ParseIntRoundTrip(n: int)
    ensures ParseInt(IntToDecimal(n)) == Some(n)
  {
    if n < 0 {
      assert IntToDecimal(n)[1..] == NatToDecimal(-n);
    }
  }

  /** A string of `k` zero digits. */
  function Zeros(k: nat): (z: string)
    ensures |z| == k && AllDigits(z)
  {
    seq(k, _ => '0')
  }

  /** Python's `s.zfill(w)` on a sign-free string: left-pad with '0' to width `w`. */
  function ZFill(s: string, w: nat): (r: string)
    ensures |r| == if |s| >= w then |s| else w
    ensures r[|r| - |s|..] == s
    ensures forall i :: 0 <= i < |r| - |s| ==> r[i] == '0'
  {
    var z := Zeros(if |s| >= w then 0 else w - |s|);
    assert (z + s)[|z|..] == s;
    z + s
  }

  lemma {:induction false} LeadingZerosValue(k: nat, s: string)
    requires AllDigits(s)
    ensures AllDigits(Zeros(k) + s)
    ensures DigitsValue(Zeros(k) + s) == DigitsValue(s)
    decreases |s|
  {
    var z := Zeros(k);
    if |s| == 0 {
      assert z + s == z;
      ZerosValue(k);
    } else {
      var t := z + s;
      assert t[..|t| - 1] == z + s[..|s| - 1];
      LeadingZerosValue(k, s[..|s| - 1]);
    }
  }

  lemma {:induction false} ZerosValue(k: nat)
    ensures DigitsValue(Zeros(k)) == 0
    decreases k
  {
    if k > 0 {
      assert Zeros(k)[..k - 1] == Zeros(k - 1);
      ZerosValue(k - 1);
    }
  }

  /** Zero-filling a digit string keeps its value. */
  lemma ZFillValue(s: string, w: nat)
    requires AllDigits(s)
    ensures AllDigits(ZFill(s, w)) && DigitsValue(ZFill(s, w)) == DigitsValue(s)
  {
    var k := if |s| >= w then 0 else w - |s|;
    assert ZFill(s, w) == Zeros(k) + s;
    LeadingZerosValue(k, s);
  }

  /** Python's `f"{n:04}"` for a natural number. */
  function Pad4(n: nat): (r: string)
    ensures IsDigits(r) && |r| >= 4
    ensures DigitsValue(r) == n
    ensures |r| == if |NatToDecimal(n)| >= 4 then |NatToDecimal(n)| else 4
  {
    ZFillValue(NatToDecimal(n), 4);
    ZFill(NatToDecimal(n), 4)
  }

  /**
   * Python's `float(s)` acceptance on a stripped string, simplified: an
   * optional sign, then `inf`, `infinity` or `nan` in any letter case, or a
   * decimal mantissa with at most one point and at least one digit,
   * optionally followed by `e`/`E`, an optional sign and digits.
   */
  predicate IsFloatLiteral(s: string)
  {
    var u := if |s| > 0 && (s[0] == '+' || s[0] == '-') then s[1..] else s;
    LowerAscii(u) in ["inf", "infinity", "nan"] || IsScientific(u)
  }

  predicate IsScientific(u: string)
  {
    if 'e' in u || 'E' in u then
      var i := FirstExponentMark(u);
      IsMantissa(u[..i]) && IsSignedDigits(u[i + 1..])
    else IsMantissa(u)
  }

  function FirstExponentMark(u: string): (i: nat)
    requires 'e' in u || 'E' in u
    ensures i < |u|
  {
    if u[0] == 'e' || u[0] == 'E' then 0 else 1 + FirstExponentMark(u[1..])
  }

  predicate IsMantissa(m: string)
  {
    && (forall i :: 0 <= i < |m| ==> IsDigit(m[i]) || m[i] == '.')
    && multiset(m)['.'] <= 1
    && exists i :: 0 <= i < |m| && IsDigit(m[i])
  }

  predicate IsSignedDigits(x: string)
  {
    if |x| > 0 && (x[0] == '+' || x[0] == '-') then IsDigits(x[1..]) else IsDigits(x)
  }

  function LowerAscii(s: string): string
  {
    seq(|s|, i requires 0 <= i < |s| => if 'A' <= s[i] <= 'Z' then (s[i] as int + 32) as char else s[i])
  }
}

=== FILE: uplink.dfy ===
/**
 * The uplink side of the station: operator commands (`POST /api/command`)
 * and the simulation sender (`sim_sender`), both of which put frames of the
 * form `CMD,<team>,<body>` on the uplink queue. The queue is a sequence,
 * oldest frame first.
 */
module Uplink {
  import opened Wrappers
  import opened Seqs
  import opened Text
  import opened Station
  import opened Logs

  /** `CMD,` followed by the zero-padded team number and a comma. */
  function FramePrefix(): string
  {
    "CMD," + TEAM_TAG + ","
  }

  /** The uplink frame for an operator command: the team prefix, then the stripped command. */
  function CommandFrame(body: string): (f: string)
  {
    FramePrefix() + Strip(body)
  }

  /** Reads an uplink frame back: the text after the team prefix, if the prefix is there. */
  function UnframeCommand(f: string): (r: Option<string>)
    ensures r.Some? <==> StartsWith(f, FramePrefix())
    ensures r.Some? ==> FramePrefix() + r.value == f
  {
    if StartsWith(f, FramePrefix()) then
      assert f == f[..|FramePrefix()|] + f[|FramePrefix()|..];
      Some(f[|FramePrefix()|..])
    else None
  }

  /** Framing a command and reading it back yields the command with its surrounding whitespace removed. */
  lemma CommandRoundTrip(body: string)
    ensures UnframeCommand(CommandFrame(body)) == Some(Strip(body))
  {
    var f := CommandFrame(body);
    assert f[..|FramePrefix()|] == FramePrefix();
    assert f[|FramePrefix()|..] == Strip(body);
  }

  /** Conversely, every frame whose body is already stripped is the frame of that body. */
  lemma UnframeCommandRoundTrip(f: string)
    requires UnframeCommand(f).Some? && Trimmed(UnframeCommand(f).value)
    ensures CommandFrame(UnframeCommand(f).value) == f
  {
    var m := UnframeCommand(f).value;
    assert m == [] + m + [];
    StripUnique([], m, []);
  }

  /** Surrounding whitespace never reaches the radio: commands equal up to it give the same frame. */
  lemma CommandIgnoresPadding(a: string, body: string, b: string)
    requires AllSpace(a) && AllSpace(b)
    ensures CommandFrame(a + body + b) == CommandFrame(body)
  {
    StripPadded(a, body, b);
  }

  /** The reply of the command endpoint: the new state, the new queue, and the frame sent. */
  datatype CommandReply = CommandReply(state: GSState, queue: seq<string>, sent: string)

  /**
   * `POST /api/command`: the frame is recorded as the last command and
   * enqueued behind everything already waiting; nothing else changes.
   */
  function ApiCommand(st: GSState, queue: seq<string>, body: string): (r: CommandReply)
    ensures UnframeCommand(r.sent) == Some(Strip(body))
    ensures r.state == st.(lastCmd := r.sent)
    ensures r.queue == queue + [r.sent]
  {
    CommandRoundTrip(body);
    var f := CommandFrame(body);
    CommandReply(st.(lastCmd := f), queue + [f], f)
  }

  // ---------------------------------------------------------------- writer

  /** The serial link as the writer task finds it: absent, accepting the write, or raising on it. */
  datatype Link = NoSerial | Connected | WriteFails

  /**
   * The outcome of writing one queued frame: the log ring, the text handed
   * to the transport (if any), and whether an uplink-failure alert goes to
   * the viewers.
   */
  datatype Transmit = Transmit(ring: Ring, wire: Option<string>, alert: bool)

  /**
   * One turn of `serial_writer_worker`: the frame goes out followed by CR LF
   * and is logged to the ring; without a port, or when the write raises,
   * nothing is logged and the viewers are alerted instead.
   */
  function WriteFrame(ring: Ring, link: Link, frame: string): (r: Transmit)
    ensures r.wire.Some? <==> link == Connected
    ensures r.wire.Some? ==> |r.wire.value| == |frame| + 2 && r.wire.value[..|frame|] == frame
    ensures r.wire.Some? ==> r.wire.value[|frame|..] == CRLF
    ensures r.alert <==> r.wire.None?
    ensures link == Connected ==> r.ring == RingAppend(ring, UplinkEntry(frame))
    ensures link != Connected ==> r.ring == ring
  {
    match link
    case Connected => Transmit(RingAppend(ring, UplinkEntry(frame)), Some(frame + CRLF), false)
    case _ => Transmit(ring, None, true)
  }

  /**
   * An operator command, once written on a working link, is the newest log
   * entry, and both that entry and the text on the wire read back to the
   * stripped command.
   */
  lemma CommandReachesRadio(st: GSState, queue: seq<string>, body: string, ring: Ring)
    ensures var f := ApiCommand(st, queue, body).sent;
      var t := WriteFrame(ring, Connected, f);
      && t.ring[|t.ring| - 1] == UplinkEntry(f)
      && UnframeCommand(t.ring[|t.ring| - 1].frame) == Some(Strip(body))
      && t.wire.Some? && UnframeCommand(t.wire.value[..|t.wire.value| - 2]) == Some(Strip(body))
  {
    var f := ApiCommand(st, queue, body).sent;
    var t := WriteFrame(ring, Connected, f);
    assert t.wire.value[..|t.wire.value| - 2] == f;
  }

  // ---------------------------------------------------------------- simulation

  /** The two frames that switch the probe into simulation mode, sent first. */
  function SimEnable(): string
  {
    FramePrefix() + "SIM,ENABLE"
  }

  function SimActivate(): string
  {
    FramePrefix() + "SIM,ACTIVATE"
  }

  /** A simulation line is sent unless, once stripped, it is empty or starts with `#`. */
  predicate Skipped(line: string)
  {
    Strip(line) == [] || StartsWith(Strip(line), "#")
  }

  /** The payload a line contributes: the stripped line, or nothing for blank and comment lines. */
  function SimPayload(line: string): (p: Option<string>)
    ensures p.None? <==> Skipped(line)
    ensures p.Some? ==> p.value == Strip(line)
    ensures p.Some? ==> p.value != [] && p.value[0] != '#' && Trimmed(p.value)
  {
    if Skipped(line) then None else Some(Strip(line))
  }

  /** The payloads of a simulation file, in file order. */
  function SimPayloads(lines: seq<string>): (ps: seq<string>)
    ensures |ps| <= |lines|
    ensures forall k :: 0 <= k < |ps| ==> ps[k] != [] && ps[k][0] != '#' && Trimmed(ps[k])
    decreases |lines|
  {
    if |lines| == 0 then []
    else
      var rest := SimPayloads(lines[1..]);
      match SimPayload(lines[0])
      case None => rest
      case Some(p) => [p] + rest
  }

  /** A single line yields its stripped text, unless it is blank or a comment. */
  lemma SimPayloadsSingle(line: string)
    ensures SimPayloads([line]) == if Skipped(line) then [] else [Strip(line)]
  {
    assert [line][1..] == [];
  }

  /** Reading a file in pieces yields the payloads of the pieces, in order. */
  lemma {:induction false} SimPayloadsAppend(a: seq<string>, b: seq<string>)
    ensures SimPayloads(a + b) == SimPayloads(a) + SimPayloads(b)
    decreases |a|
  {
    if |a| == 0 {
      assert a + b == b;
    } else {
      assert (a + b)[1..] == a[1..] + b;
      SimPayloadsAppend(a[1..], b);
    }
  }

  /** Only skipped lines contribute nothing: the payloads are empty iff every line is skipped. */
  lemma {:induction false} SimPayloadsEmpty(lines: seq<string>)
    ensures SimPayloads(lines) == [] <==> forall k :: 0 <= k < |lines| ==> Skipped(lines[k])
    decreases |lines|
  {
    if |lines| > 0 {
      var rest := lines[1..];
      SimPayloadsEmpty(rest);
      assert forall k :: 0 <= k < |rest| ==> rest[k] == lines[k + 1];
      assert forall k :: 1 <= k < |lines| ==> lines[k] == rest[k - 1];
    }
  }

  /** A file line keeps its payload when read with its newline: `strip` removes the terminator. */
  lemma SimPayloadIgnoresNewline(line: string)
    ensures SimPayload(line + "\n") == SimPayload(line)
  {
    assert line + "\n" == [] + line + "\n";
    StripPadded([], line, "\n");
  }

  /** The frame that carries one simulated pressure reading. */
  function SimFrame(payload: string): string
  {
    FramePrefix() + "SIMP," + payload
  }

  /** Reads a simulation frame back to its payload. */
  function UnframeSim(f: string): (r: Option<string>)
    ensures r.Some? ==> SimFrame(r.value) == f
  {
    match UnframeCommand(f)
    case Some(body) =>
      if StartsWith(body, "SIMP,") then
        assert body == "SIMP," + body[5..];
        Some(body[5..])
      else None
    case None => None
  }

  lemma SimFrameRoundTrip(payload: string)
    ensures UnframeSim(SimFrame(payload)) == Some(payload)
  {
    var f := SimFrame(payload);
    assert f == FramePrefix() + ("SIMP," + payload);
    assert f[..|FramePrefix()|] == FramePrefix();
    assert f[|FramePrefix()|..] == "SIMP," + payload;
    assert ("SIMP," + payload)[..5] == "SIMP,";
    assert ("SIMP," + payload)[5..] == payload;
  }

  /** One `SIMP` frame per payload, in order. */
  function SimFrames(payloads: seq<string>): (fs: seq<string>)
    ensures |fs| == |payloads|
  {
    seq(|payloads|, k requires 0 <= k < |payloads| => SimFrame(payloads[k]))
  }

  /** Each frame of a run reads back to the payload at the same position. */
  lemma SimFramesDecode(payloads: seq<string>)
    ensures forall k :: 0 <= k < |payloads| ==> UnframeSim(SimFrames(payloads)[k]) == Some(payloads[k])
  {
    forall k | 0 <= k < |payloads| ensures UnframeSim(SimFrames(payloads)[k]) == Some(payloads[k]) {
      SimFrameRoundTrip(payloads[k]);
    }
  }

  lemma SimFramesAppend(a: seq<string>, b: seq<string>)
    ensures SimFrames(a + b) == SimFrames(a) + SimFrames(b)
  {
  }

  /**
   * Everything `sim_sender` enqueues: the enable and activate frames, then,
   * if the file exists, one frame per non-skipped line in file order.
   */
  function SimSchedule(file: Option<seq<string>>): seq<string>
  {
    [SimEnable(), SimActivate()] + match file
      case None => []
      case Some(lines) => SimFrames(SimPayloads(lines))
  }

  /** Reading one more line of the file appends that line's frame, if it has one. */
  lemma SimFramesStep(lines: seq<string>, i: nat)
    requires i < |lines|
    ensures SimFrames(SimPayloads(lines[..i + 1])) ==
      SimFrames(SimPayloads(lines[..i])) + (if Skipped(lines[i]) then [] else [SimFrame(Strip(lines[i]))])
  {
    assert lines[..i + 1] == lines[..i] + [lines[i]];
    SimPayloadsAppend(lines[..i], [lines[i]]);
    SimFramesAppend(SimPayloads(lines[..i]), SimPayloads([lines[i]]));
  }

  /** The sender's loop over the file's lines, sending one frame per non-skipped line. */
  method SendLines(queue: seq<string>, lines: seq<string>) returns (queue': seq<string>)
    ensures queue' == queue + SimFrames(SimPayloads(lines))
  {
    queue' := queue;
    var i := 0;
    while i < |lines|
      invariant 0 <= i <= |lines|
      invariant queue' == queue + SimFrames(SimPayloads(lines[..i]))
    {
      var s := Strip(lines[i]);
      SimFramesStep(lines, i);
      ghost var sent := SimFrames(SimPayloads(lines[..i]));
      if !(s == [] || StartsWith(s, "#")) {
        assert queue' + [SimFrame(s)] == queue + (sent + [SimFrame(s)]);
        queue' := queue' + [SimFrame(s)];
      } else {
        assert sent + [] == sent;
      }
      i := i + 1;
    }
    assert lines[..i] == lines;
  }

  /** `sim_sender`: the preamble, then the file's frames unless the file is missing. */
  method SimSender(queue: seq<string>, file: Option<seq<string>>) returns (queue': seq<string>)
    ensures queue' == queue + SimSchedule(file)
  {
    var preamble := [SimEnable(), SimActivate()];
    queue' := queue + [SimEnable()];
    queue' := queue' + [SimActivate()];
    assert queue' == queue + preamble;
    if file.None? {
      assert SimSchedule(file) == preamble + [];
      return;
    }
    var frames := SimFrames(SimPayloads(file.value));
    assert SimSchedule(file) == preamble + frames;
    queue' := SendLines(queue', file.value);
  }

  /** Every frame `sim_sender` enqueues after the preamble carries a trimmed, non-empty, non-comment reading. */
  lemma SimScheduleShape(lines: seq<string>)
    ensures var fs := SimSchedule(Some(lines));
      |fs| <= |lines| + 2
      && forall k :: 2 <= k < |fs| ==>
        UnframeSim(fs[k]).Some? && UnframeSim(fs[k]).value != [] && UnframeSim(fs[k]).value[0] != '#'
  {
    var ps := SimPayloads(lines);
    var fs := SimSchedule(Some(lines));
    SimFramesDecode(ps);
    assert forall k :: 2 <= k < |fs| ==> fs[k] == SimFrames(ps)[k - 2];
  }
}

=== FILE: wrappers.dfy ===
/** Option and Result datatypes used across the model. */
module Wrappers {

  datatype Option<+T> = None | Some(value: T) {
    function GetOr(default: T): T {
      match this
      case Some(v) => v
      case None => default
    }
  }

  datatype Result<+R, +E> = Success(value: R) | Failure(error: E)
}
